=== FILE: README.md ===
# A verified model of the home DNS server's core

The server answers DNS queries over UDP for names kept in a Redis
directory. Names it does not know are relayed to an upstream resolver.
An HTTP admin API adds and removes directory records. This project models
four pieces of it in Dafny and proves what they promise:

- **The query engine** (`internal/handlers/handlers.go`). `HandleDNSQuery`
  checks a datagram's header and walks the labels of its question.
  `parseName` decodes the name, and `getIpForDN` looks it up in the
  directory. Each datagram has one of three outcomes: a silent drop (with
  the reason), a forward of the unchanged query, or a synthesized reply
  with one A record.
  - The step-by-step code is modelled as methods: `Engine.HandleDNSQuery`,
    `Engine.WalkLabels`, `Engine.ParseName` and `Engine.AnswerQuestion`.
  - Each method is proved equal to a specification function:
    `Dispatch`, `WalkQuestion`, `DecodeName` and `Resolve`.
  - The lemmas in `Engine` and `EngineProperties` state what those
    functions guarantee.
- **The earlier, unchecked engine** (`handlers/handlers.go`). Its walk
  trusts the length bytes. The model makes "every index stays inside the
  datagram" its precondition (`LegacyWellFormed`). Lemmas show that every
  well-formed query meets that precondition, that both revisions decode
  names alike, and that there are datagrams only the checked revision
  survives.
- **The admin API** (`internal/api/apiHandlers/api.go`):
  - `validateDomain`;
  - the TTL rule, including its 64-bit wrap-around;
  - the order in which `CreateRecord` and `DeleteRecord` choose their
    HTTP response and change the directory.
- **The context manager** (`internal/manager/dns.go`). A class whose one
  field is a possibly-nil map from domain to port.

The directory is a value, `Directory.Store`, with three possible states:

- the Redis wrapper is missing;
- every command fails;
- the store answers from a map of records.

`Integration` connects the API and the engine:

- a record the API creates is served by the engine;
- a record it deletes is no longer served;
- the API accepts some names the engine cannot look up, namely names of
  more than 100 labels that are still within 253 bytes.

A failed lookup is not a drop. When there is no store connection or the
GET fails, `getIpForDN` returns `""`, and the engine forwards on `""`. So
such queries are forwarded upstream (`EngineProperties.NoDirectoryForwards`).

Several checks in `HandleDNSQuery` and `parseName` can never fire: those
of `internal/handlers/handlers.go` lines 77, 83, 125, 167, 216 and 247, and
the `len(label) > 0` test of line 251. The methods say so in comments and
assertions rather than modelling them as branches.

## Model

| member | source | states |
|---|---|---|
| Text.ContainsIff | internal/handlers/handlers.go:23 | `strings.Contains` holds exactly when the substring occurs at some offset |
| Text.JoinSplit | internal/api/apiHandlers/api.go:36 | joining the pieces of a split with the separator gives the original text back |
| Text.SplitJoin | internal/api/apiHandlers/api.go:36 | splitting a join of separator-free parts gives exactly those parts |
| Text.SplitPartsAreSeparatorFree | internal/api/apiHandlers/api.go:36-37 | no piece of a split contains the separator |
| Text.JoinOfNonEmptyParts | internal/api/apiHandlers/api.go:36-41 | a join of non-empty parts neither starts nor ends with the separator and never has two side by side |
| Wire.QrBit | internal/handlers/handlers.go:55 | the QR bit is 1 exactly when the flags byte is 0x80 or more, and 0 otherwise |
| Wire.DottedNameLength | internal/handlers/handlers.go:139 | a dotted name is one character shorter than its label encoding, so it has at most 253 characters exactly when the encoded name fits in 255 octets |
| Wire.AppendAnswerPrefix | internal/handlers/handlers.go:159-178 | the append sequence builds exactly the reply up to its RDATA, whatever RDATA follows |
| Wire.ResponseLayout | internal/handlers/handlers.go:159-185 | the reply read field by field: the query's ID, QR set, RCODE 0, the query's QDCOUNT, ANCOUNT 1, NSCOUNT and ARCOUNT 0, the echoed question, a pointer to offset 12, type A, class IN, TTL 60, RDLENGTH 4, then the address |
| IPv4.ParseIPv4 | internal/handlers/handlers.go:180 | text that parses as an address gives exactly four bytes |
| IPv4.ParsesExactlyFormatted | internal/handlers/handlers.go:180 | text parses as an address exactly when it is the dotted-quad form of some four bytes |
| IPv4.OctetRoundTrip | internal/handlers/handlers.go:180 | the shortest decimal text of a byte parses back to that byte and holds no dot |
| IPv4.OctetCanonical | internal/handlers/handlers.go:180 | a field that parses as a byte is that byte's shortest decimal text (no leading zeros) |
| IPv4.ParseFormatted | internal/handlers/handlers.go:180 | formatting four address bytes and parsing the text gives the bytes back |
| IPv4.ParsedIsFormatted | internal/handlers/handlers.go:180 | text that parses as an address is exactly that address's dotted-quad form |
| Engine.GetIpForDN | internal/handlers/handlers.go:15-30 | a missing or failing store gives ""; any value other than "" and "error" is the record stored under the name |
| Engine.GetIpForDNCases | internal/handlers/handlers.go:15-30 | no store or a failing store gives ""; a stored name gives its value; a missing name gives "error" when ".home" occurs in it and "" otherwise |
| Engine.WalkFollowsChain | internal/handlers/handlers.go:72-113 | along a chain of ordinary labels inside the datagram and at or below offset 512, the walk ends where it ends from the chain's last position |
| Engine.WalkOutcomeAt | internal/handlers/handlers.go:72-113 | where a chain leads to: a zero byte ends the name there, a pointer byte ends it two bytes later, a length of 64 to 191, an overrun or an offset past 512 drops the datagram |
| Engine.WalkResult | internal/handlers/handlers.go:72-113 | every completed walk ends at the end of a bare header, at a chain's zero byte, or two bytes past a chain's pointer byte; every drop comes from a chain whose next length byte is bad |
| Engine.WalkLabels | internal/handlers/handlers.go:72-113 | the loop's result is the walk `WalkQuestion` specifies |
| Engine.NameLabelsShape | internal/handlers/handlers.go:207-265 | decoding collects at most 100 labels of 1 to 63 bytes whose encoding is the start of the input, and unless 100 rounds cut it short it stopped at a byte that cannot start a label |
| Engine.NameLabelsOfEncoding | internal/handlers/handlers.go:207-265 | decoding encoded labels followed by a stop byte gives back the labels, cut to the first 100 |
| Engine.ParseName | internal/handlers/handlers.go:207-265 | the loop returns the labels that `NameLabels` specifies, joined with "." |
| Engine.AnswerQuestion | internal/handlers/handlers.go:115-188 | decode, the empty and length checks, lookup, the "" and "error" cases, address parse and reply bytes are exactly `Resolve` |
| Engine.HandleDNSQuery | internal/handlers/handlers.go:32-189 | the handler's outcome for every datagram is exactly `Dispatch`: header checks in order, the walk, the QTYPE/QCLASS room check, then `Resolve` |
| EngineProperties.NameDecodesBack | internal/handlers/handlers.go:207-265 | the wire form of at most 100 labels decodes to their dotted name |
| EngineProperties.LongNameIsTruncated | internal/handlers/handlers.go:210-213 | a name of more than 100 labels decodes as its first 100 labels only |
| EngineProperties.WellFormedQuery | internal/handlers/handlers.go:32-147 | a query with a valid header and a readable name passes every check up to the lookup, and the name looked up is the dotted form of its labels, non-empty and at most 253 characters |
| EngineProperties.RegisteredNameIsAnswered | internal/handlers/handlers.go:147-188 | for a query with a valid header and a readable name (1 to 100 labels, at most 255 octets), a name stored with a dotted-quad value gets the synthesized reply carrying that address |
| EngineProperties.UnregisteredNameIsForwarded | internal/handlers/handlers.go:147-153 | for a query with a valid header and a readable name (1 to 100 labels, at most 255 octets), a name without a record and without ".home" is forwarded unchanged |
| EngineProperties.UnregisteredHomeNameIsDropped | internal/handlers/handlers.go:147-156 | for a query with a valid header and a readable name (1 to 100 labels, at most 255 octets), a name without a record with ".home" in it is dropped |
| EngineProperties.NoDirectoryForwards | internal/handlers/handlers.go:15-30 | with no store connection, or a store whose commands fail, every well-formed query is forwarded |
| EngineProperties.BadDirectoryValueIsDropped | internal/handlers/handlers.go:180-184 | for a query with a valid header and a readable name (1 to 100 labels, at most 255 octets), a stored value that is not an address (nor "" nor "error") drops the query |
| EngineProperties.ReplyComesFromRecord | internal/handlers/handlers.go:32-189 | every reply comes from a query that passed the header checks and a live store, and carries the address stored for the decoded name |
| EngineProperties.ForwardMeansNoValue | internal/handlers/handlers.go:134-153 | every forward passes on the query unchanged, and happens only when the walked question's name is non-empty, at most 253 characters, and the store gave no value for it |
| EngineProperties.ReplyLayout | internal/handlers/handlers.go:159-185 | every reply echoes the ID, the QDCOUNT and the question, sets QR, and has one answer of type A and class IN that points to offset 12 |
| LegacyEngine.TerminatorIndex | handlers/handlers.go:22-25 | the unchecked walk stops on a zero byte inside the datagram |
| LegacyEngine.AddressBytes | handlers/handlers.go:60-61 | `To4` appends four bytes or none |
| LegacyEngine.WalkToTerminator | handlers/handlers.go:22-25 | the unchecked loop ends at the labels' zero byte |
| LegacyEngine.ParseName | handlers/handlers.go:82-95 | the earlier `parseName` returns the labels up to the first zero length, joined with "." |
| LegacyEngine.LegacyDispatch | handlers/handlers.go:12-64 | no question drops; a question whose name is not "vm.home.local" is forwarded unchanged; that name is dropped without an interface address and otherwise answered with `ResponseBytes` (laid out as `Wire.ResponseLayout` states) carrying the address bytes `To4` gives, whose length the contract also states |
| LegacyEngine.HandleDNSQuery | handlers/handlers.go:12-64 | the earlier handler's outcome is exactly `LegacyDispatch`: no question drops, names other than "vm.home.local" are forwarded, that name is answered with the interface address, or dropped without one |
| LegacyEngine.TerminatedPrefix | handlers/handlers.go:26-29 | cutting the bytes after the zero byte changes neither where the walk stops nor the labels it reads |
| LegacyEngine.LegacyReadsEncoding | handlers/handlers.go:82-95 | the unchecked walk reads encoded labels back and stops on their terminator |
| LegacyEngine.BothRevisionsDecode | handlers/handlers.go:82-95 | both revisions decode the wire form of 1 to 100 labels to the same dotted name |
| LegacyEngine.CheckedChainIsSafe | handlers/handlers.go:22-25 | where the checked walk follows ordinary labels to a zero byte, the unchecked walk is safe and stops at the same byte |
| LegacyEngine.RevisionsAgree | handlers/handlers.go:12-64 | every well-formed query is inside the earlier revision's precondition; it is forwarded unless its name is "vm.home.local", which is answered with the same bytes the checked revision sends for a record holding that address |
| LegacyEngine.BareHeaderOnlyCheckedRevisionHandles | handlers/handlers.go:22-23 | a bare 12-byte header announcing a question would make the earlier revision read past the datagram; the checked one drops it |
| LegacyEngine.OverrunOnlyCheckedRevisionHandles | handlers/handlers.go:22-24 | a label running past the datagram's end would make the earlier revision index outside it; the checked one drops it |
| Api.Utf8Length | internal/api/apiHandlers/api.go:32 | Go's byte length of a string lies between its character count and four times that |
| Api.AsciiLength | internal/api/apiHandlers/api.go:32 | for ASCII text the byte length is the character count |
| Api.ValidateDomain | internal/api/apiHandlers/api.go:31-43 | a valid domain has 1 to 253 characters, since its 1 to 253 bytes hold at least one byte per character |
| Api.ValidDomainShape | internal/api/apiHandlers/api.go:31-43 | a valid domain is non-empty, neither starts nor ends with a dot, and has no ".." |
| Api.EmptyPartRejects | internal/api/apiHandlers/api.go:36-39 | a leading dot, a trailing dot or ".." rejects the domain |
| Api.LongPartRejects | internal/api/apiHandlers/api.go:38-39 | a part longer than 63 bytes rejects the domain |
| Api.ValidDomainIsJoinOfParts | internal/api/apiHandlers/api.go:31-43 | a domain is valid exactly when it is the dot-join of dot-free parts of 1 to 63 bytes and has at most 253 bytes |
| Api.Wrap64 | internal/api/apiHandlers/api.go:146 | the 64-bit result differs from the true product by a multiple of 2^64 |
| Api.Expiry | internal/api/apiHandlers/api.go:144-147 | a TTL of 0 or less gives no expiry; a positive TTL gives the TTL in nanoseconds, wrapped to 64 bits |
| Api.ExpiryInRange | internal/api/apiHandlers/api.go:144-147 | a TTL from 1 to 9223372036 seconds becomes that many seconds in nanoseconds; a TTL of 0 or less means no expiry |
| Api.ExpiryWrapsAround | internal/api/apiHandlers/api.go:146 | 9223372037 seconds gives a negative duration and 18446744074 seconds gives 290448384 nanoseconds |
| Api.BindingError | internal/api/apiHandlers/api.go:14-18 | there is no binding error exactly when the body decoded and both "domain" and "ip" are non-empty; a decoder error is passed on unchanged |
| Api.ValidateIP | internal/api/apiHandlers/api.go:27-29 | an address is valid exactly when it is an accepted IPv6 form or the dotted-quad form of four bytes |
| Api.CreateRecord | internal/api/apiHandlers/api.go:105-165 | success exactly with status 201; 201 exactly when the body binds, the domain and the address are valid and the store is live; then the record is written with its expiry; otherwise the store is unchanged |
| Api.CreateRecordOrder | internal/api/apiHandlers/api.go:105-157 | the first failing check decides the answer: body, domain, address, missing store, failing store, each with its status and message |
| Api.CreateSucceeds | internal/api/apiHandlers/api.go:143-164 | a valid request against a live store answers 201 and adds exactly that record |
| Api.TrimSpace | internal/api/apiHandlers/api.go:169 | the trimmed name is no longer than the parameter and neither starts nor ends with white space |
| Api.TrimSpaceCutsOnlySpace | internal/api/apiHandlers/api.go:169 | the trimmed name is a piece of the parameter with white space, and only white space, cut from both ends |
| Api.TrimSpaceIdempotent | internal/api/apiHandlers/api.go:169 | the trimmed name neither starts nor ends with white space, and trimming again changes nothing |
| Api.DeleteRecord | internal/api/apiHandlers/api.go:168-225 | success exactly with status 200; 200 exactly when the trimmed name is non-empty, the store is live and holds it; then exactly that record is removed; otherwise the store is unchanged |
| Api.DeleteRecordOrder | internal/api/apiHandlers/api.go:168-207 | the first failing check decides: empty name 400, missing store or failing EXISTS 500, absent record 404 with the store unchanged |
| Api.DeleteSucceeds | internal/api/apiHandlers/api.go:209-224 | deleting a stored, already trimmed name answers 200 and removes exactly that record |
| Api.CreateThenDelete | internal/api/apiHandlers/api.go:105-225 | after a successful create, deleting the same name leaves every other record as it was |
| Manager.ContextManager.constructor | internal/manager/dns.go:10-12 | a new manager holds a nil map, which reads as empty |
| Manager.ContextManager.AddRP | internal/manager/dns.go:14-18 | on a non-nil map, the name maps to the port and every other entry is unchanged |
| Manager.ContextManager.RemoveRP | internal/manager/dns.go:20-24 | the name is gone, every other entry is unchanged, and a nil map stays nil |
| Manager.ContextManager.GetContext | internal/manager/dns.go:26-30 | returns the current map, nil included |
| Manager.ContextManager.LoadContext | internal/manager/dns.go:32-36 | the map is replaced by the given one |
| Manager.LoadAddRemove | internal/manager/dns.go:14-36 | loading a map, adding a name and removing it again gives the loaded map without that name |
| Integration.ValidDomainIsReadable | internal/api/apiHandlers/api.go:31-43 | an ASCII domain the API accepts, of at most 100 parts, is a name the engine reads whole, and its dotted form is the domain |
| Integration.CreatedRecordIsServed | internal/api/apiHandlers/api.go:105-165 | after a successful create of an ASCII domain with at most 100 parts and a dotted-quad address, a query for the domain gets the reply carrying that address |
| Integration.DeletedRecordIsNotServed | internal/api/apiHandlers/api.go:168-225 | after a successful delete of an ASCII name, a query for the deleted name is forwarded, or dropped when ".home" occurs in it |
| Integration.ManyPartsAreTruncated | internal/handlers/handlers.go:210-213 | a domain of 101 to 127 one-letter parts passes `validateDomain`, but the engine decodes a query for it as a different name |

## Left out

- Logging, the `recover` handler and `wg.Done` are not modelled. They do not change what a datagram gets.
- The goroutines that call `HandleDNSQuery` are not modelled. They share one read buffer, which the listener reuses for the next datagram while a handler may still be waiting on the directory or the relay, so in Go a handler can read, echo or forward bytes of a later datagram. The model assumes that a handler's datagram does not change while it runs.
- `forwardAndRespond` is not modelled. It does network I/O, and a forward appears only as the `Forward(query)` outcome.
- Writing the reply is not modelled. `pc.WriteTo` is the `Reply(bytes)` outcome.
- `utils.GetTsIP` is not part of this model. The earlier engine takes the interface address text as a parameter, with "" for none.
- `constants.Redis` is not part of this model. It is a value of type `Directory.Store`: missing, failing on every command, or answering from a map.
- Record expiry over time is not modelled. A record stores the expiration given to SET, and nothing ever removes it.
- The mutex of `ContextManager` and concurrent access are not modelled.
- Aliasing is not modelled. `GetContext` returns a value, whereas Go returns the map itself, which later changes would update. `LoadContext` stores a value, whereas Go stores the caller's map itself, so later changes by the caller would show through.
- Manager.ContextManager.AddRP: requires a non-nil map. Go panics when it writes to a nil map, so that case is a precondition and not an outcome.
- Api.ValidateIP: only dotted quads are parsed. Whether the text is one of the IPv6 forms that `net.ParseIP` accepts is a boolean input.
- IPv4.ParseIPv4: the IPv4-mapped IPv6 forms that `To4` also turns into four bytes are not modelled. The engine reads stored values only as dotted quads.
- Api.BindingError: the JSON decoder's error text for malformed bodies is an input, `Undecodable(detail)`. Only the `required` tag messages are modelled.
- The `Data` field of the API responses is not modelled. Only the status, `success` and `message` are.
- Api.DeleteRecord: a DEL that fails after EXISTS succeeded is not modelled. A `Directory.Store` either fails every command or none, so the "Failed to delete DNS record" answer never occurs in the model.
- `GetRecords`, `HealthCheck`, `CORSMiddleware` and `StartAPIServer` are not modelled. They are routing and listing code outside this model.
- LegacyEngine.HandleDNSQuery: requires `LegacyWellFormed`. Where this fails, Go either panics or reads header fields past the datagram, and the model describes neither.
- LegacyEngine.LegacyDispatch: datagrams of fewer than 6 bytes are not modelled (`LegacyWellFormed` asks for 6). The handler gets a slice of a reused 512-byte buffer, so Go reads the ID and QDCOUNT of such a datagram from stale bytes left by an earlier one. When those bytes give a QDCOUNT of 0, it drops the datagram without a panic.
- LegacyEngine.HandleDNSQuery: slicing up to a buffer's capacity beyond its length (`req[12:off]` with `off` past `len(req)`) is not modelled. The precondition asks for `off <= len(req)`.
- Integration.CreatedRecordIsServed: requires an ASCII domain of at most 100 parts. Non-ASCII names are spelled differently by the model's API and engine (see the next line), and a domain of more than 100 parts is looked up under its first 100 labels only (`Integration.ManyPartsAreTruncated`).
- Integration.DeletedRecordIsNotServed: requires an ASCII name. The API and the engine agree on directory keys only for ASCII names, since the model keys API records by Unicode text and engine lookups by one character per byte. Go uses the UTF-8 bytes on both sides, so for other names the model's two sides look up different keys.
- Engine strings hold one character per byte, as Go's `string(bytes)` does. Text handling of the API (trimming, UTF-8 lengths) works on Unicode code points, and invalid UTF-8 is not modelled.

=== FILE: api.dfy ===
/**
 * The admin API of internal/api/apiHandlers/api.go: the domain check
 * `validateDomain`, the TTL rule of `CreateRecord`, and the order in which
 * `CreateRecord` and `DeleteRecord` decide their HTTP response and what
 * they do to the directory.
 */
module Api {
  import opened Wrappers
  import Text
  import IPv4
  import Directory

  // ---------------------------------------------------------------------
  // Domain names

  /** The number of bytes of the UTF-8 encoding of `s`: Go's `len` on a string. */
  function Utf8Length(s: string): (n: nat)
    ensures |s| <= n <= 4 * |s|
  {
    if |s| == 0 then 0
    else
      var c := s[0] as int;
      (if c < 0x80 then 1 else if c < 0x800 then 2 else if c < 0x1_0000 then 3 else 4)
        + Utf8Length(s[1..])
  }

  /** Characters that are one byte in UTF-8. */
  predicate Ascii(s: string)
  {
    forall k :: 0 <= k < |s| ==> s[k] as int < 0x80
  }

  lemma {:induction false} AsciiLength(s: string)
    requires Ascii(s)
    ensures Utf8Length(s) == |s|
    decreases |s|
  {
    if |s| > 0 {
      AsciiLength(s[1..]);
    }
  }

  const MaxDomainLength: nat := 253
  const MaxLabelLength: nat := 63

  /** A part between dots has 1 to 63 bytes. */
  predicate ValidPart(part: string)
  {
    1 <= Utf8Length(part) <= MaxLabelLength
  }

  /**
   * `validateDomain`: 1 to 253 bytes, and every part between dots 1 to 63
   * bytes. Go returns early on the first bad part; all parts are good
   * exactly when none is bad.
   */
  predicate ValidateDomain(domain: string)
    ensures ValidateDomain(domain) ==> 1 <= |domain| <= MaxDomainLength
  {
    && 1 <= Utf8Length(domain) <= MaxDomainLength
    && var parts := Text.Split(domain, '.');
       forall k :: 0 <= k < |parts| ==> ValidPart(parts[k])
  }

  /**
   * A valid domain neither starts nor ends with a dot and never holds two
   * dots side by side, since each of those would make an empty part.
   */
  lemma ValidDomainShape(domain: string)
    requires ValidateDomain(domain)
    ensures |domain| > 0 && domain[0] != '.' && domain[|domain| - 1] != '.'
    ensures forall i :: 0 <= i < |domain| - 1 ==> !(domain[i] == '.' && domain[i + 1] == '.')
  {
    var parts := Text.Split(domain, '.');
    Text.SplitPartsAreSeparatorFree(domain, '.');
    Text.JoinSplit(domain, '.');
    Text.JoinOfNonEmptyParts(parts, '.');
  }

  /** An empty part anywhere rejects the domain: a leading dot, a trailing dot or "..". */
  lemma EmptyPartRejects(domain: string, i: nat)
    requires i < |domain| && domain[i] == '.'
    requires i == 0 || i == |domain| - 1 || (i + 1 < |domain| && domain[i + 1] == '.')
    ensures !ValidateDomain(domain)
  {
    if ValidateDomain(domain) {
      ValidDomainShape(domain);
    }
  }

  /** A part longer than 63 bytes rejects the domain. */
  lemma LongPartRejects(domain: string, k: nat)
    requires k < |Text.Split(domain, '.')| && Utf8Length(Text.Split(domain, '.')[k]) > MaxLabelLength
    ensures !ValidateDomain(domain)
  {
  }

  /**
   * Exactly the joins of 1 to 63-byte, dot-free parts, 253 bytes at most
   * in all, are valid domains: the parts are the ones `validateDomain`
   * splits the domain into.
   */
  lemma ValidDomainIsJoinOfParts(domain: string)
    ensures ValidateDomain(domain) <==>
      exists parts: seq<string> :: WellFormedParts(parts) && Text.Join(parts, '.') == domain
        && Utf8Length(domain) <= MaxDomainLength
  {
    var split := Text.Split(domain, '.');
    Text.SplitPartsAreSeparatorFree(domain, '.');
    Text.JoinSplit(domain, '.');
    if ValidateDomain(domain) {
      assert WellFormedParts(split);
    }
    if exists parts: seq<string> :: WellFormedParts(parts) && Text.Join(parts, '.') == domain
        && Utf8Length(domain) <= MaxDomainLength {
      var parts: seq<string> :| WellFormedParts(parts) && Text.Join(parts, '.') == domain
        && Utf8Length(domain) <= MaxDomainLength;
      Text.SplitJoin(parts, '.');
      JoinedPartsLength(parts);
    }
  }

  /** At least one part, each dot-free and of 1 to 63 bytes. */
  predicate WellFormedParts(parts: seq<string>)
  {
    |parts| >= 1 && forall k :: 0 <= k < |parts| ==> '.' !in parts[k] && ValidPart(parts[k])
  }

  lemma {:induction false} JoinedPartsLength(parts: seq<string>)
    requires |parts| >= 1 && forall k :: 0 <= k < |parts| ==> ValidPart(parts[k])
    ensures Utf8Length(Text.Join(parts, '.')) >= 1
    decreases |parts|
  {
    if |parts| > 1 {
      JoinedPartsLength(parts[1..]);
      Utf8Append(parts[0] + ['.'], Text.Join(parts[1..], '.'));
    }
  }

  lemma {:induction false} Utf8Append(a: string, b: string)
    ensures Utf8Length(a + b) == Utf8Length(a) + Utf8Length(b)
    decreases |a|
  {
    if |a| > 0 {
      assert (a + b)[0] == a[0] && (a + b)[1..] == a[1..] + b;
      Utf8Append(a[1..], b);
    } else {
      assert a + b == b;
    }
  }

  // ---------------------------------------------------------------------
  // The TTL rule

  const Two63: int := 0x8000_0000_0000_0000
  const Two64: int := 0x1_0000_0000_0000_0000

  /** Go's `int` and `time.Duration` on a 64-bit platform. */
  type int64 = x: int | -Two63 <= x < Two63

  /** Two's-complement wrap-around of a product to 64 bits, as Go's signed multiplication does. */
  function Wrap64(x: int): (w: int64)
    ensures (w - x) % Two64 == 0
  {
    (x + Two63) % Two64 - Two63
  }

  const NanosPerSecond: nat := 1_000_000_000

  /**
   * The expiration given to SET, in nanoseconds: `time.Duration(ttl) *
   * time.Second` for a positive TTL, otherwise 0 (no expiry).
   */
  function Expiry(ttl: int64): (e: int64)
    ensures ttl <= 0 ==> e == 0
    ensures ttl > 0 ==> (e - ttl * NanosPerSecond) % Two64 == 0
  {
    if ttl > 0 then Wrap64(ttl * NanosPerSecond) else 0
  }

  /**
   * A positive TTL up to 9223372036 seconds becomes that many seconds; a TTL
   * of 0 or less, the -1 the web UI sends included, means no expiry.
   */
  lemma ExpiryInRange(ttl: int64)
    ensures 0 < ttl <= 9_223_372_036 ==> Expiry(ttl) == ttl * NanosPerSecond
    ensures ttl <= 0 ==> Expiry(ttl) == 0
  {
    if 0 < ttl <= 9_223_372_036 {
      var x := ttl * NanosPerSecond;
      assert 0 <= x + Two63 < Two64;
      assert (x + Two63) % Two64 == x + Two63;
    }
  }

  /**
   * Larger TTLs wrap around: one second more than that range gives a
   * negative duration, and 18446744074 seconds gives 290448384 nanoseconds.
   */
  lemma ExpiryWrapsAround()
    ensures Expiry(9_223_372_037) == 9_223_372_037 * NanosPerSecond - Two64 < 0
    ensures Expiry(18_446_744_074) == 290_448_384
  {
    var x := 9_223_372_037 * NanosPerSecond;
    assert x + Two63 - Two64 == (x + Two63) % Two64 by {
      assert Two64 <= x + Two63 < 2 * Two64;
    }
    var y := 18_446_744_074 * NanosPerSecond;
    assert y + Two63 - Two64 == (y + Two63) % Two64 by {
      assert Two64 <= y + Two63 < 2 * Two64;
    }
  }

  // ---------------------------------------------------------------------
  // Handlers

  /** The JSON body of a create request as the decoder leaves it. */
  datatype Request =
    | Undecodable(detail: string)                       // not JSON, or a field of the wrong type or range
    | Decoded(domain: string, ip: string, ttl: int64)   // a missing "ttl" decodes as 0

  /** The status code, `success` and `message` of the JSON reply. */
  datatype ApiResponse = ApiResponse(status: nat, success: bool, message: string)

  const BadRequest: nat := 400
  const InternalServerError: nat := 500
  const NotFound: nat := 404
  const Created: nat := 201
  const OK: nat := 200

  /** `binding:"required"` on "domain" and "ip": both must be non-empty. */
  function BindingError(req: Request): (e: Option<string>)
    ensures e.None? <==> req.Decoded? && req.domain != "" && req.ip != ""
    ensures req.Undecodable? ==> e == Some(req.detail)
  {
    match req
    case Undecodable(detail) => Some(detail)
    case Decoded(domain, ip, _) =>
      if domain == "" && ip == "" then Some(RequiredTag("Domain") + "\n" + RequiredTag("IP"))
      else if domain == "" then Some(RequiredTag("Domain"))
      else if ip == "" then Some(RequiredTag("IP"))
      else None
  }

  function RequiredTag(field: string): string
  {
    "Key: 'DNSRecord." + field + "' Error:Field validation for '" + field + "' failed on the 'required' tag"
  }

  /**
   * `validateIP`: text `net.ParseIP` accepts. Dotted quads are modelled;
   * whether the text is one of the IPv6 forms it accepts is the input `ipv6`.
   */
  predicate ValidateIP(ip: string, ipv6: bool)
    ensures ValidateIP(ip, ipv6) <==> ipv6 || exists a :: |a| == 4 && IPv4.FormatIPv4(a) == ip
  {
    IPv4.ParsesExactlyFormatted(ip);
    IPv4.ParseIPv4(ip).Some? || ipv6
  }

  /** What POST /api/records answers, and the directory afterwards. */
  function CreateRecord(req: Request, ipv6: bool, store: Directory.Store): (r: (ApiResponse, Directory.Store))
    ensures r.1 == store || r.0.status == Created
    ensures r.0.success <==> r.0.status == Created
    ensures r.0.status == Created <==>
      && req.Decoded? && req.domain != "" && req.ip != ""
      && ValidateDomain(req.domain) && ValidateIP(req.ip, ipv6) && store.Live?
    ensures r.0.status == Created ==>
      r.1 == Directory.Live(store.records[req.domain := Directory.Entry(req.ip, Expiry(req.ttl))])
  {
    var bindError := BindingError(req);
    if bindError.Some? then
      (ApiResponse(BadRequest, false, "Invalid JSON format: " + bindError.value), store)
    else if !ValidateDomain(req.domain) then
      (ApiResponse(BadRequest, false, "Invalid domain name"), store)
    else if !ValidateIP(req.ip, ipv6) then
      (ApiResponse(BadRequest, false, "Invalid IP address"), store)
    else if store.Disconnected? then
      (ApiResponse(InternalServerError, false, "Redis connection not available"), store)
    else
      var (after, status) := Directory.Set(store, req.domain, req.ip, Expiry(req.ttl));
      if status != Directory.Ok then
        (ApiResponse(InternalServerError, false, "Failed to create DNS record"), store)
      else
        (ApiResponse(Created, true, "DNS record created successfully"), after)
  }

  /**
   * The checks of `CreateRecord` come in a fixed order and the first one
   * that fails decides the answer: the body, then the domain, then the
   * address, then the directory.
   */
  lemma CreateRecordOrder(req: Request, ipv6: bool, store: Directory.Store)
    ensures var (resp, _) := CreateRecord(req, ipv6, store);
      && (BindingError(req).Some? ==>
            resp == ApiResponse(BadRequest, false, "Invalid JSON format: " + BindingError(req).value))
      && (BindingError(req).None? && !ValidateDomain(req.domain) ==>
            resp == ApiResponse(BadRequest, false, "Invalid domain name"))
      && (BindingError(req).None? && ValidateDomain(req.domain) && !ValidateIP(req.ip, ipv6) ==>
            resp == ApiResponse(BadRequest, false, "Invalid IP address"))
      && (BindingError(req).None? && ValidateDomain(req.domain) && ValidateIP(req.ip, ipv6) && store.Disconnected? ==>
            resp == ApiResponse(InternalServerError, false, "Redis connection not available"))
      && (BindingError(req).None? && ValidateDomain(req.domain) && ValidateIP(req.ip, ipv6) && store.Failing? ==>
            resp == ApiResponse(InternalServerError, false, "Failed to create DNS record"))
  {
  }

  /** Go's `unicode.IsSpace`. */
  predicate IsSpace(c: char)
  {
    || c == '\t' || c == '\n' || c == '\U{B}' || c == '\U{C}' || c == '\r' || c == ' '
    || c == '\U{85}' || c == '\U{A0}' || c == '\U{1680}'
    || ('\U{2000}' <= c <= '\U{200A}')
    || c == '\U{2028}' || c == '\U{2029}' || c == '\U{202F}' || c == '\U{205F}' || c == '\U{3000}'
  }

  function TrimLeft(s: string): (t: string)
    ensures |t| <= |s| && t == s[|s| - |t|..]
    ensures |t| > 0 ==> !IsSpace(t[0])
    ensures forall k :: 0 <= k < |s| - |t| ==> IsSpace(s[k])
  {
    if |s| > 0 && IsSpace(s[0]) then TrimLeft(s[1..]) else s
  }

  function TrimRight(s: string): (t: string)
    ensures |t| <= |s| && t == s[..|t|]
    ensures |t| > 0 ==> !IsSpace(t[|t| - 1])
    ensures forall k :: |t| <= k < |s| ==> IsSpace(s[k])
  {
    if |s| > 0 && IsSpace(s[|s| - 1]) then TrimRight(s[..|s| - 1]) else s
  }

  /** `strings.TrimSpace`: drops white space at both ends. */
  function TrimSpace(s: string): (t: string)
    ensures |t| <= |s|
    ensures |t| > 0 ==> !IsSpace(t[0]) && !IsSpace(t[|t| - 1])
  {
    TrimRight(TrimLeft(s))
  }

  /** `t` is `s` from offset `i` on, with only white space around it. */
  predicate TrimmedAt(s: string, t: string, i: int)
  {
    && 0 <= i <= |s| - |t| && s[i..i + |t|] == t
    && (forall k :: 0 <= k < i ==> IsSpace(s[k]))
    && (forall k :: i + |t| <= k < |s| ==> IsSpace(s[k]))
  }

  /** The trimmed text is a piece of the original with white space, and only white space, cut from both ends. */
  lemma TrimSpaceCutsOnlySpace(s: string)
    ensures exists i :: TrimmedAt(s, TrimSpace(s), i)
  {
    var l := TrimLeft(s);
    CutBothEnds(s, l, TrimRight(l));
    assert TrimmedAt(s, TrimSpace(s), |s| - |l|);
  }

  /** White space cut from the front of `s`, giving `l`, then from the back of `l`, giving `t`. */
  lemma CutBothEnds(s: string, l: string, t: string)
    requires |t| <= |l| <= |s| && l == s[|s| - |l|..] && t == l[..|t|]
    requires forall k :: 0 <= k < |s| - |l| ==> IsSpace(s[k])
    requires forall k :: |t| <= k < |l| ==> IsSpace(l[k])
    ensures TrimmedAt(s, t, |s| - |l|)
  {
    var i := |s| - |l|;
    assert s[i..i + |t|] == t;
    forall k | i + |t| <= k < |s|
      ensures IsSpace(s[k])
    {
      assert s[k] == l[k - i];
    }
  }

  /** The trimmed text neither starts nor ends with white space, so trimming it again changes nothing. */
  lemma TrimSpaceIdempotent(s: string)
    ensures var t := TrimSpace(s);
      (|t| > 0 ==> !IsSpace(t[0]) && !IsSpace(t[|t| - 1])) && TrimSpace(t) == t
  {
    var l := TrimLeft(s);
    var t := TrimRight(l);
    if |t| > 0 {
      assert t[0] == l[0];
    }
  }

  /** What DELETE /api/records/:domain answers, and the directory afterwards. */
  function DeleteRecord(param: string, store: Directory.Store): (r: (ApiResponse, Directory.Store))
    ensures r.1 == store || r.0.status == OK
    ensures r.0.success <==> r.0.status == OK
    ensures r.0.status == OK <==>
      TrimSpace(param) != "" && store.Live? && TrimSpace(param) in store.records
    ensures r.0.status == OK ==> r.1 == Directory.Live(store.records - {TrimSpace(param)})
  {
    var domain := TrimSpace(param);
    if domain == "" then
      (ApiResponse(BadRequest, false, "Domain name is required"), store)
    else if store.Disconnected? then
      (ApiResponse(InternalServerError, false, "Redis connection not available"), store)
    else
      var (exists_, status) := Directory.Exists(store, domain);
      if status != Directory.Ok then
        (ApiResponse(InternalServerError, false, "Failed to check record existence"), store)
      else if exists_ == 0 then
        (ApiResponse(NotFound, false, "DNS record not found"), store)
      else
        var (after, delStatus) := Directory.Del(store, domain);
        if delStatus != Directory.Ok then
          (ApiResponse(InternalServerError, false, "Failed to delete DNS record"), store)
        else
          (ApiResponse(OK, true, "DNS record deleted successfully"), after)
  }

  /**
   * The checks of `DeleteRecord` in order: an empty name after trimming is
   * a bad request, a missing or failing directory a server error, and a
   * name without a record is not found, with the directory left as it was.
   */
  lemma DeleteRecordOrder(param: string, store: Directory.Store)
    ensures var (resp, after) := DeleteRecord(param, store);
      && (TrimSpace(param) == "" ==> resp == ApiResponse(BadRequest, false, "Domain name is required"))
      && (TrimSpace(param) != "" && store.Disconnected? ==>
            resp == ApiResponse(InternalServerError, false, "Redis connection not available"))
      && (TrimSpace(param) != "" && store.Failing? ==>
            resp == ApiResponse(InternalServerError, false, "Failed to check record existence"))
      && (TrimSpace(param) != "" && store.Live? && TrimSpace(param) !in store.records ==>
            resp == ApiResponse(NotFound, false, "DNS record not found") && after == store)
  {
  }

  /** A well-formed request for a valid domain and address is stored in a live directory. */
  lemma CreateSucceeds(domain: string, ip: string, ttl: int64, ipv6: bool, records: map<string, Directory.Entry>)
    requires domain != "" && ip != "" && ValidateDomain(domain) && ValidateIP(ip, ipv6)
    ensures CreateRecord(Decoded(domain, ip, ttl), ipv6, Directory.Live(records))
      == (ApiResponse(Created, true, "DNS record created successfully"),
          Directory.Live(records[domain := Directory.Entry(ip, Expiry(ttl))]))
  {
  }

  /** Deleting a recorded name, given without surrounding white space, removes exactly that record. */
  lemma DeleteSucceeds(domain: string, records: map<string, Directory.Entry>)
    requires domain != "" && TrimSpace(domain) == domain && domain in records
    ensures DeleteRecord(domain, Directory.Live(records))
      == (ApiResponse(OK, true, "DNS record deleted successfully"), Directory.Live(records - {domain}))
  {
  }

  /**
   * Once a create has succeeded, deleting the same name, given without
   * surrounding white space, leaves every other record as it was.
   */
  lemma CreateThenDelete(domain: string, ip: string, ttl: int64, ipv6: bool, records: map<string, Directory.Entry>)
    requires CreateRecord(Decoded(domain, ip, ttl), ipv6, Directory.Live(records)).0.status == Created
    requires TrimSpace(domain) == domain
    ensures DeleteRecord(domain, CreateRecord(Decoded(domain, ip, ttl), ipv6, Directory.Live(records)).1)
      == (ApiResponse(OK, true, "DNS record deleted successfully"), Directory.Live(records - {domain}))
  {
    var written := records[domain := Directory.Entry(ip, Expiry(ttl))];
    DeleteSucceeds(domain, written);
    assert written - {domain} == records - {domain};
  }
}

=== FILE: directory.dfy ===
/**
 * The key/value directory shared by the query engine and the admin API: a
 * Redis instance reached through the `constants.Redis` wrapper, which is
 * not part of this model. It is modelled by its observable replies: the
 * wrapper is absent, every command fails, or the store answers from a map
 * of domain names to records.
 */
module Directory {

  /** A stored record: the address text and the expiration given to SET, in nanoseconds. */
  datatype Entry = Entry(value: string, expiration: int)

  datatype Store =
    | Disconnected                       // `constants.Redis == nil`
    | Failing                            // connected, every command returns an error
    | Live(records: map<string, Entry>)

  /** The error half of a reply: none, `redis.Nil` (no such key), or any other error. */
  datatype Status = Ok | NilReply | CommandError

  datatype GetReply = GetReply(val: string, err: Status)

  /** GET: the value and no error, or "" with `redis.Nil` for a missing key. */
  function Get(store: Store, key: string): GetReply
    requires !store.Disconnected?
  {
    if store.Failing? then GetReply("", CommandError)
    else if key in store.records then GetReply(store.records[key].value, Ok)
    else GetReply("", NilReply)
  }

  /** EXISTS for one key: 1 or 0. */
  function Exists(store: Store, key: string): (nat, Status)
    requires !store.Disconnected?
  {
    if store.Failing? then (0, CommandError)
    else if key in store.records then (1, Ok)
    else (0, Ok)
  }

  /** SET with an expiration. */
  function Set(store: Store, key: string, value: string, expiration: int): (Store, Status)
    requires !store.Disconnected?
  {
    if store.Failing? then (store, CommandError)
    else (Live(store.records[key := Entry(value, expiration)]), Ok)
  }

  /** DEL of one key. */
  function Del(store: Store, key: string): (Store, Status)
    requires !store.Disconnected?
  {
    if store.Failing? then (store, CommandError)
    else (Live(store.records - {key}), Ok)
  }
}

=== FILE: engine.dfy ===
/**
 * The DNS query engine of internal/handlers/handlers.go: one datagram in,
 * one of three outcomes out (drop, forward to the upstream resolver, or a
 * synthesized reply with one A record).
 *
 * `HandleDNSQuery` and `ParseName` are the source's step-by-step code;
 * `Dispatch`, `WalkQuestion`, `NameLabels` and `DecodeName` are the
 * functions they are proved against, and the lemmas here and in
 * EngineProperties state what those functions promise.
 */
module Engine {
  import opened Wrappers
  import opened Wire
  import Text
  import IPv4
  import Directory

  const MaxQuestions: nat := 10
  const MaxNameIterations: nat := 100
  const MaxNameLength: nat := 253
  const HomeMarker: string := ".home"

  // ---------------------------------------------------------------------
  // Lookup decision (getIpForDN, internal/handlers/handlers.go lines 15-30)

  /**
   * The text `getIpForDN` hands back: "" when there is no store, the stored
   * value when there is one, "error" for a missing name containing ".home",
   * and otherwise the value the failed GET carried ("").
   */
  function GetIpForDN(store: Directory.Store, domainName: string): (ip: string)
    ensures store.Disconnected? || store.Failing? ==> ip == ""
    ensures ip != "" && ip != "error" ==>
      store.Live? && domainName in store.records && store.records[domainName].value == ip
  {
    if store.Disconnected? then ""
    else
      var reply := Directory.Get(store, domainName);
      if reply.err == Directory.NilReply && Text.Contains(domainName, HomeMarker) then "error"
      else reply.val
  }

  /** The four cases of the lookup, with ".home" found anywhere in the name. */
  lemma GetIpForDNCases(store: Directory.Store, name: string)
    ensures store.Disconnected? || store.Failing? ==> GetIpForDN(store, name) == ""
    ensures store.Live? && name in store.records ==>
      GetIpForDN(store, name) == store.records[name].value
    ensures store.Live? && name !in store.records ==>
      GetIpForDN(store, name) == (if exists i :: Text.OccursAt(name, HomeMarker, i) then "error" else "")
  {
    Text.ContainsIff(name, HomeMarker);
  }

  // ---------------------------------------------------------------------
  // Question walk (the label loop of HandleDNSQuery, internal/handlers/handlers.go lines 72-113)

  datatype Walk = NameEnd(off: nat) | Stop(reason: DropReason)

  /** Where the walk over the question's labels ends when it is at `off`. */
  function WalkQuestion(req: seq<byte>, off: nat): (w: Walk)
    ensures w.NameEnd? ==> w.off >= off
    decreases |req| - off
  {
    if off >= |req| || req[off] == 0 then NameEnd(off)
    else if req[off] >= PointerMark then NameEnd(off + 2)
    else if req[off] > MaxLabelLength then Stop(BadLabelLength)
    else if off + 1 + req[off] >= |req| then Stop(LabelOverrun)
    else if off + 1 + req[off] > MaxUdpMessage then Stop(TooLarge)
    else WalkQuestion(req, off + 1 + req[off])
  }

  /** From `from` to `to`, `req` holds ordinary labels of 1 to 63 bytes, back to back. */
  ghost predicate LabelChain(req: seq<byte>, from: nat, to: nat)
    decreases to - from
  {
    from == to
    || (from < to && from < |req| && 1 <= req[from] <= MaxLabelLength
        && LabelChain(req, from + 1 + req[from], to))
  }

  /** What the walk sees at `p` decides where it ends. */
  predicate EndsHere(req: seq<byte>, p: nat)
  {
    p >= |req| || req[p] == 0 || req[p] > MaxLabelLength
    || p + 1 + req[p] >= |req| || p + 1 + req[p] > MaxUdpMessage
  }

  /**
   * Along a chain of ordinary labels that stays inside the datagram and at
   * or below offset 512, the walk only moves on: it ends where it would end
   * from the chain's last position.
   */
  lemma {:induction false} WalkFollowsChain(req: seq<byte>, off: nat, p: nat)
    requires LabelChain(req, off, p) && p < |req| && p <= MaxUdpMessage
    ensures WalkQuestion(req, off) == WalkQuestion(req, p)
    decreases p - off
  {
    if off != p {
      var next := off + 1 + req[off];
      assert next <= p by {
        assert LabelChain(req, next, p);
      }
      WalkFollowsChain(req, next, p);
    }
  }

  /**
   * How a walk that reaches `p` along a chain ends: a zero byte ends the
   * name at `p`, a pointer byte (192 or more) ends it two bytes later, a
   * length of 64 to 191 drops the datagram, and so does a label that does
   * not end before the datagram does or that takes the offset past 512.
   */
  lemma WalkOutcomeAt(req: seq<byte>, off: nat, p: nat)
    requires LabelChain(req, off, p) && p < |req| && p <= MaxUdpMessage
    ensures req[p] == 0 ==> WalkQuestion(req, off) == NameEnd(p)
    ensures req[p] >= PointerMark ==> WalkQuestion(req, off) == NameEnd(p + 2)
    ensures MaxLabelLength < req[p] < PointerMark ==> WalkQuestion(req, off) == Stop(BadLabelLength)
    ensures 1 <= req[p] <= MaxLabelLength && p + 1 + req[p] >= |req| ==>
      WalkQuestion(req, off) == Stop(LabelOverrun)
    ensures 1 <= req[p] <= MaxLabelLength && p + 1 + req[p] < |req| && p + 1 + req[p] > MaxUdpMessage ==>
      WalkQuestion(req, off) == Stop(TooLarge)
  {
    WalkFollowsChain(req, off, p);
  }

  /**
   * Where a completed walk stops: at the zero byte that ends a chain of
   * ordinary labels, two bytes past a pointer byte that ends one, or (for a
   * bare header) at the end of the datagram. A drop always comes from a
   * chain whose next length byte is bad.
   */
  lemma {:induction false} WalkResult(req: seq<byte>, off: nat)
    ensures WalkQuestion(req, off).NameEnd? ==>
      var e := WalkQuestion(req, off).off;
      || (off == e && off >= |req|)
      || (LabelChain(req, off, e) && e < |req| && req[e] == 0)
      || (off + 2 <= e && LabelChain(req, off, e - 2) && e - 2 < |req| && req[e - 2] >= PointerMark)
    ensures WalkQuestion(req, off).Stop? ==>
      exists p: nat :: LabelChain(req, off, p) && p < |req| && 1 <= req[p] < PointerMark && EndsHere(req, p)
    decreases |req| - off
  {
    if off >= |req| || req[off] == 0 || req[off] >= PointerMark {
      assert LabelChain(req, off, off);
    } else if req[off] > MaxLabelLength || off + 1 + req[off] >= |req| || off + 1 + req[off] > MaxUdpMessage {
      assert LabelChain(req, off, off);
    } else {
      var next := off + 1 + req[off];
      WalkResult(req, next);
      var w := WalkQuestion(req, next);
      if w.NameEnd? {
        var e := w.off;
        if LabelChain(req, next, e) && e < |req| && req[e] == 0 {
          assert LabelChain(req, off, e);
        } else {
          assert LabelChain(req, next, e - 2);
          assert LabelChain(req, off, e - 2);
        }
      } else {
        var p: nat :| LabelChain(req, next, p) && p < |req| && 1 <= req[p] < PointerMark && EndsHere(req, p);
        assert LabelChain(req, off, p);
      }
    }
  }

  // ---------------------------------------------------------------------
  // Name decoding (parseName, internal/handlers/handlers.go lines 207-265)

  /**
   * The labels `parseName` collects from `q` once it has made `iterations`
   * rounds: it stops at a zero byte, a pointer byte, a length above 63, a
   * label that would run past the end of `q`, the end of `q`, or after 100
   * rounds, and keeps what it has collected so far.
   */
  function NameLabels(q: seq<byte>, iterations: nat): seq<seq<byte>>
    decreases |q|
  {
    if |q| == 0 || iterations >= MaxNameIterations then []
    else if q[0] == 0 || q[0] >= PointerMark || q[0] > MaxLabelLength || 1 + q[0] > |q| then []
    else [q[1..1 + q[0]]] + NameLabels(q[1 + q[0]..], iterations + 1)
  }

  /** The name `parseName` returns for the question bytes `q`. */
  function DecodeName(q: seq<byte>): string
  {
    DottedName(NameLabels(q, 0))
  }

  /** Decoding stops at a byte that cannot start another label here. */
  predicate StopsNameAt(q: seq<byte>, p: nat)
  {
    p >= |q| || q[p] == 0 || q[p] > MaxLabelLength || p + 1 + q[p] > |q|
  }

  /**
   * What decoding collects: at most 100 - `iterations` labels, each of 1 to
   * 63 bytes, whose encoding is exactly the start of `q`; and unless the
   * round limit cut it short, decoding stopped because the next byte could
   * not start a label.
   */
  lemma {:induction false} NameLabelsShape(q: seq<byte>, iterations: nat)
    requires iterations <= MaxNameIterations
    ensures var ls := NameLabels(q, iterations);
      && |ls| <= MaxNameIterations - iterations
      && WireLabels(ls)
      && |EncodeLabels(ls)| <= |q| && q[..|EncodeLabels(ls)|] == EncodeLabels(ls)
      && (|ls| == MaxNameIterations - iterations || StopsNameAt(q, |EncodeLabels(ls)|))
    decreases |q|
  {
    if |q| == 0 || iterations >= MaxNameIterations
      || q[0] == 0 || q[0] >= PointerMark || q[0] > MaxLabelLength || 1 + q[0] > |q| {
    } else {
      var rest := q[1 + q[0]..];
      NameLabelsShape(rest, iterations + 1);
      var tail := NameLabels(rest, iterations + 1);
      assert NameLabels(q, iterations) == [q[1..1 + q[0]]] + tail;
      ShapeStep(q, tail, MaxNameIterations - (iterations + 1));
    }
  }

  /** One step of `NameLabelsShape`: a label read in front of what decoding the rest collected. */
  lemma ShapeStep(q: seq<byte>, tail: seq<seq<byte>>, bound: nat)
    requires |q| >= 1 && 1 <= q[0] <= MaxLabelLength && 1 + q[0] <= |q|
    requires |tail| <= bound && WireLabels(tail)
    requires |EncodeLabels(tail)| <= |q[1 + q[0]..]|
    requires q[1 + q[0]..][..|EncodeLabels(tail)|] == EncodeLabels(tail)
    requires |tail| == bound || StopsNameAt(q[1 + q[0]..], |EncodeLabels(tail)|)
    ensures var ls := [q[1..1 + q[0]]] + tail;
      && |ls| <= bound + 1
      && WireLabels(ls)
      && |EncodeLabels(ls)| <= |q| && q[..|EncodeLabels(ls)|] == EncodeLabels(ls)
      && (|ls| == bound + 1 || StopsNameAt(q, |EncodeLabels(ls)|))
  {
    var n := q[0] as int;
    var m := |EncodeLabels(tail)|;
    EncodeOneMore(q[1..1 + n], tail);
    ReadOneMore(q, n, EncodeLabels(tail));
    if |tail| < bound {
      StopOneMore(q, n, m);
    }
  }

  /** Encoding one more label in front. */
  lemma EncodeOneMore(x: seq<byte>, tail: seq<seq<byte>>)
    requires 1 <= |x| <= MaxLabelLength && WireLabels(tail)
    ensures WireLabels([x] + tail)
    ensures EncodeLabels([x] + tail) == [|x|] + x + EncodeLabels(tail)
  {
    assert ([x] + tail)[1..] == tail;
  }

  /** Where decoding `q[1 + n..]` stops, decoding `q` stops too. */
  lemma StopOneMore(q: seq<byte>, n: nat, m: nat)
    requires 1 + n <= |q| && StopsNameAt(q[1 + n..], m)
    ensures StopsNameAt(q, 1 + n + m)
  {
    if m < |q[1 + n..]| {
      assert q[1 + n..][m] == q[1 + n + m];
    }
  }

  /** A label of `n` bytes read at the start of `q`, followed by `e` read after it. */
  lemma ReadOneMore(q: seq<byte>, n: nat, e: seq<byte>)
    requires 1 + n <= |q| && q[0] as int == n
    requires |e| <= |q[1 + n..]| && q[1 + n..][..|e|] == e
    ensures q[..1 + n + |e|] == [q[0]] + q[1..1 + n] + e
  {
    assert q[..1 + n + |e|] == q[..1 + n] + q[1 + n..][..|e|];
    assert q[..1 + n] == [q[0]] + q[1..1 + n];
  }

  /**
   * Decoding the encoding of labels of 1 to 63 bytes, followed by anything
   * that stops the decoder, gives the labels back, cut to the first 100.
   */
  lemma {:induction false} NameLabelsOfEncoding(ls: seq<seq<byte>>, rest: seq<byte>, iterations: nat)
    requires WireLabels(ls) && StopsNameAt(rest, 0) && iterations <= MaxNameIterations
    ensures NameLabels(EncodeLabels(ls) + rest, iterations)
      == if |ls| <= MaxNameIterations - iterations then ls else ls[..MaxNameIterations - iterations]
    decreases |ls|
  {
    if |ls| == 0 {
      assert EncodeLabels(ls) + rest == rest;
    } else if iterations < MaxNameIterations {
      NameLabelsOfEncoding(ls[1..], rest, iterations + 1);
      LabelInFront(ls, rest, iterations);
    }
  }

  /**
   * One step of `NameLabelsOfEncoding`: decoding reads the first label and
   * goes on with the encoding of the others.
   */
  lemma LabelInFront(ls: seq<seq<byte>>, rest: seq<byte>, iterations: nat)
    requires WireLabels(ls) && |ls| >= 1 && iterations < MaxNameIterations
    requires NameLabels(EncodeLabels(ls[1..]) + rest, iterations + 1)
      == if |ls| - 1 <= MaxNameIterations - iterations - 1 then ls[1..] else ls[1..][..MaxNameIterations - iterations - 1]
    ensures NameLabels(EncodeLabels(ls) + rest, iterations)
      == if |ls| <= MaxNameIterations - iterations then ls else ls[..MaxNameIterations - iterations]
  {
    var x := ls[0];
    DecodeFront(ls, rest, iterations);
    if |ls| <= MaxNameIterations - iterations {
      assert [x] + ls[1..] == ls;
    } else {
      assert [x] + ls[1..][..MaxNameIterations - iterations - 1] == ls[..MaxNameIterations - iterations];
    }
  }

  /** Decoding an encoding reads its first label, then decodes the encoding of the others one round later. */
  lemma DecodeFront(ls: seq<seq<byte>>, rest: seq<byte>, iterations: nat)
    requires WireLabels(ls) && |ls| >= 1 && iterations < MaxNameIterations
    ensures NameLabels(EncodeLabels(ls) + rest, iterations)
      == [ls[0]] + NameLabels(EncodeLabels(ls[1..]) + rest, iterations + 1)
  {
    var x := ls[0];
    assert [x] + ls[1..] == ls;
    EncodeOneMore(x, ls[1..]);
    var tail := EncodeLabels(ls[1..]) + rest;
    var q := EncodeLabels(ls) + rest;
    assert q == [|x|] + x + tail;
    assert q[0] == |x| && q[1..1 + |x|] == x && q[1 + |x|..] == tail;
  }

  /** One round of `parseName` at offset `i`: either decoding stops there, or it reads one label and goes on after it. */
  lemma NameStep(q: seq<byte>, i: nat, iterations: nat)
    requires i < |q| && iterations < MaxNameIterations
    ensures q[i] == 0 || q[i] >= PointerMark || q[i] > MaxLabelLength || i + 1 + q[i] > |q|
      ==> NameLabels(q[i..], iterations) == []
    ensures !(q[i] == 0 || q[i] >= PointerMark || q[i] > MaxLabelLength || i + 1 + q[i] > |q|) ==>
      NameLabels(q[i..], iterations) == [q[i + 1..i + 1 + q[i]]] + NameLabels(q[i + 1 + q[i]..], iterations + 1)
  {
    assert q[i..][0] == q[i];
    if !(q[i] == 0 || q[i] >= PointerMark || q[i] > MaxLabelLength || i + 1 + q[i] > |q|) {
      assert q[i..][1..1 + q[i]] == q[i + 1..i + 1 + q[i]];
      assert q[i..][1 + q[i]..] == q[i + 1 + q[i]..];
    }
  }

  /** The loop invariant of `parseName` across one round: a stop ends the name, a label extends it. */
  lemma ParseStep(q: seq<byte>, i: nat, iterations: nat, labels: seq<seq<byte>>)
    requires i < |q| && iterations < MaxNameIterations
    requires labels + NameLabels(q[i..], iterations) == NameLabels(q, 0)
    ensures q[i] == 0 || q[i] >= PointerMark || q[i] > MaxLabelLength || i + 1 + q[i] > |q|
      ==> labels == NameLabels(q, 0)
    ensures !(q[i] == 0 || q[i] >= PointerMark || q[i] > MaxLabelLength || i + 1 + q[i] > |q|)
      ==> (labels + [q[i + 1..i + 1 + q[i]]]) + NameLabels(q[i + 1 + q[i]..], iterations + 1) == NameLabels(q, 0)
  {
    NameStep(q, i, iterations);
    if !(q[i] == 0 || q[i] >= PointerMark || q[i] > MaxLabelLength || i + 1 + q[i] > |q|) {
      var x := q[i + 1..i + 1 + q[i]];
      var rest := NameLabels(q[i + 1 + q[i]..], iterations + 1);
      assert (labels + [x]) + rest == labels + ([x] + rest);
    }
  }

  /** `parseName`: the labels of `q` joined with ".". */
  method ParseName(q: seq<byte>) returns (name: string)
    ensures name == DecodeName(q)
  {
    var parts: seq<string> := [];
    ghost var labels: seq<seq<byte>> := [];
    var i := 0;
    var iterations := 0;
    while i < |q| && iterations < MaxNameIterations
      invariant 0 <= i <= |q|
      invariant labels + NameLabels(q[i..], iterations) == NameLabels(q, 0)
      invariant parts == LabelTexts(labels)
      decreases |q| - i
    {
      ghost var before := iterations;
      iterations := iterations + 1;
      // `i < |q|` holds here: parseName's check for an offset past the question never fires.
      var length := q[i];
      ParseStep(q, i, before, labels);
      if length == 0 {
        break;
      }
      if length >= PointerMark {
        break;
      }
      if length > MaxLabelLength {
        break;
      }
      if i + 1 + length > |q| {
        break;
      }
      i := i + 1;
      // parseName's bounds guard on the label slice and its non-empty test on the label always hold.
      var text := AsString(q[i..i + length]);
      LabelTextsSnoc(labels, q[i..i + length]);
      parts := parts + [text];
      labels := labels + [q[i..i + length]];
      i := i + length;
    }
    assert labels == NameLabels(q, 0);
    name := Text.Join(parts, '.');
  }

  // ---------------------------------------------------------------------
  // The whole query (HandleDNSQuery, internal/handlers/handlers.go lines 32-189)

  /**
   * What happens to the question section that ends at `off` (QTYPE and
   * QCLASS included): its name is decoded and checked, looked up, and the
   * lookup decides between forwarding, dropping and a reply.
   */
  function Resolve(req: seq<byte>, off: nat, store: Directory.Store): Outcome
    requires HeaderSize + 5 <= off <= |req|
  {
    var domain := DecodeName(req[HeaderSize..off - 4]);
    if domain == "" then Drop(EmptyName)
    else if |domain| > MaxNameLength then Drop(NameTooLong)
    else
      var ipstr := GetIpForDN(store, domain);
      if ipstr == "" then Forward(req)
      else if ipstr == "error" then Drop(LookupError)
      else match IPv4.ParseIPv4(ipstr)
        case None => Drop(BadAddress)
        case Some(ip) => Reply(ResponseBytes(req, off, ip))
  }

  /** What the engine does with the datagram `req`, given the directory `store`. */
  function Dispatch(req: seq<byte>, store: Directory.Store): Outcome
  {
    if |req| < HeaderSize then Drop(TooShort)
    else if QrBit(req[2]) != 0 then Drop(NotAQuery)
    else if QdCount(req) == 0 then Drop(NoQuestion)
    else if QdCount(req) > MaxQuestions then Drop(TooManyQuestions)
    else match WalkQuestion(req, HeaderSize)
      case Stop(reason) => Drop(reason)
      case NameEnd(end) =>
        if end + 5 > |req| then Drop(TruncatedQuestion) else Resolve(req, end + 5, store)
  }

  /**
   * The label walk of `HandleDNSQuery` (internal/handlers/handlers.go lines 72-113): it stops at a zero
   * byte, after a pointer, or at the end of the datagram, and drops the
   * datagram for a bad length, an overrun or an offset past 512.
   */
  method WalkLabels(req: seq<byte>, qdCount: nat) returns (w: Walk)
    requires HeaderSize <= |req| && qdCount > 0
    ensures w == WalkQuestion(req, HeaderSize)
  {
    var off := HeaderSize;
    var questionCount := 0;  // never incremented, as in the source
    while off < |req| && req[off] != 0 && questionCount < qdCount
      invariant HeaderSize <= off <= |req|
      invariant questionCount == 0
      invariant WalkQuestion(req, off) == WalkQuestion(req, HeaderSize)
      decreases |req| - off
    {
      // Inside the loop `off < |req|` and `req[off] != 0`, so the walk's
      // own checks for an offset past the datagram and for a zero length
      // byte never fire.
      var labelLen := req[off];
      if labelLen >= PointerMark {
        off := off + 2;
        break;
      }
      if labelLen > MaxLabelLength {
        return Stop(BadLabelLength);
      }
      if off + 1 + labelLen >= |req| {
        return Stop(LabelOverrun);
      }
      off := off + labelLen + 1;
      if off > MaxUdpMessage {
        return Stop(TooLarge);
      }
    }
    return NameEnd(off);
  }

  /** `HandleDNSQuery`: validates, walks, decodes, looks up and answers one datagram. */
  method HandleDNSQuery(req: seq<byte>, store: Directory.Store) returns (out: Outcome)
    ensures out == Dispatch(req, store)
  {
    if |req| < HeaderSize {
      return Drop(TooShort);
    }
    var qr := QrBit(req[2]);
    if qr != 0 {
      return Drop(NotAQuery);
    }
    var qdCount := QdCount(req);
    if qdCount == 0 {
      return Drop(NoQuestion);
    }
    if qdCount > MaxQuestions {
      return Drop(TooManyQuestions);
    }

    var walk := WalkLabels(req, qdCount);
    if walk.Stop? {
      return Drop(walk.reason);
    }
    var off := walk.off;

    if off + 5 > |req| {
      return Drop(TruncatedQuestion);
    }
    off := off + 5;
    out := AnswerQuestion(req, off, store);
  }

  /**
   * The rest of `HandleDNSQuery` once the question section is known to end
   * at `off`: decode and check the name, look it up, and forward, drop or
   * build the reply.
   */
  method AnswerQuestion(req: seq<byte>, off: nat, store: Directory.Store) returns (out: Outcome)
    requires HeaderSize + 5 <= off <= |req|
    ensures out == Resolve(req, off, store)
  {
    // The bounds check on the question's end never fires.
    assert HeaderSize <= off - 4 <= |req|;
    var question := req[HeaderSize..off - 4];
    var domain := ParseName(question);
    if domain == "" {
      return Drop(EmptyName);
    }
    if |domain| > MaxNameLength {
      return Drop(NameTooLong);
    }

    var ipstr := GetIpForDN(store, domain);
    if ipstr == "" {
      return Forward(req);
    }
    if ipstr == "error" {
      return Drop(LookupError);
    }

    // The bounds check before echoing the question never fires: `off <= |req|`.
    var res := AppendAnswerPrefix(req, off);
    var ip := IPv4.ParseIPv4(ipstr);
    if ip.None? {
      return Drop(BadAddress);
    }
    res := res + ip.value;
    assert res == ResponseBytes(req, off, ip.value);
    return Reply(res);
  }
}

=== FILE: engine_properties.dfy ===
/**
 * What the query engine of internal/handlers/handlers.go promises, stated
 * over `Engine.Dispatch`: a well-formed query for a registered name gets
 * the synthesized A record, an unregistered one is forwarded or dropped,
 * and every reply and every forward is explained by the directory.
 */
module EngineProperties {
  import opened Wire
  import Text
  import IPv4
  import Directory
  import opened Engine

  /** A query with one question: a 12-byte header, the encoded name, then QTYPE, QCLASS and anything after. */
  function Query(header: seq<byte>, ls: seq<seq<byte>>, qtail: seq<byte>): seq<byte>
    requires WireLabels(ls)
  {
    header + EncodeName(ls) + qtail
  }

  /** A header that passes the engine's checks: a query (QR clear) with 1 to 10 questions. */
  predicate QueryHeader(header: seq<byte>)
  {
    |header| == HeaderSize && header[2] < 0x80 && 1 <= Be16(header, 4) <= MaxQuestions
  }

  /** A name the engine reads whole: 1 to 100 labels and at most 255 octets on the wire. */
  predicate ReadableName(ls: seq<seq<byte>>)
  {
    WireLabels(ls) && 1 <= |ls| <= MaxNameIterations && |EncodeName(ls)| <= MaxNameOctets
  }

  /** Where the question of `Query(header, ls, qtail)` ends, QTYPE and QCLASS included. */
  function QuestionEnd(ls: seq<seq<byte>>): nat
    requires WireLabels(ls)
  {
    HeaderSize + |EncodeName(ls)| + 4
  }

  /** Labels encoded back to back form a chain of ordinary labels. */
  lemma {:induction false} EncodedChain(req: seq<byte>, from: nat, ls: seq<seq<byte>>)
    requires WireLabels(ls)
    requires from + |EncodeLabels(ls)| <= |req| && req[from..from + |EncodeLabels(ls)|] == EncodeLabels(ls)
    ensures LabelChain(req, from, from + |EncodeLabels(ls)|)
    decreases |ls|
  {
    if |ls| > 0 {
      var e := EncodeLabels(ls);
      var e1 := EncodeLabels(ls[1..]);
      var next := from + 1 + |ls[0]|;
      assert e == [|ls[0]|] + ls[0] + e1;
      assert req[from] == e[0] == |ls[0]|;
      assert req[next..next + |e1|] == e[1 + |ls[0]|..] == e1;
      EncodedChain(req, next, ls[1..]);
    }
  }

  /** Decoding the encoding of at most 100 labels gives the dotted name of those labels. */
  lemma NameDecodesBack(ls: seq<seq<byte>>)
    requires WireLabels(ls) && |ls| <= MaxNameIterations
    ensures DecodeName(EncodeName(ls)) == DottedName(ls)
  {
    NameLabelsOfEncoding(ls, [0], 0);
  }

  /** A name of more than 100 labels is read as its first 100 labels only. */
  lemma LongNameIsTruncated(ls: seq<seq<byte>>)
    requires WireLabels(ls) && |ls| > MaxNameIterations
    ensures DecodeName(EncodeName(ls)) == DottedName(ls[..MaxNameIterations])
  {
    NameLabelsOfEncoding(ls, [0], 0);
  }

  /**
   * A well-formed query passes every check before the lookup: the walk
   * ends at the name's zero byte, and the name looked up is the dotted form
   * of the labels sent.
   */
  lemma WellFormedQuery(header: seq<byte>, ls: seq<seq<byte>>, qtail: seq<byte>, store: Directory.Store)
    requires QueryHeader(header) && ReadableName(ls) && |qtail| >= 4
    ensures var req := Query(header, ls, qtail);
      && QuestionEnd(ls) <= |req|
      && req[HeaderSize..QuestionEnd(ls) - 4] == EncodeName(ls)
      && Dispatch(req, store) == Resolve(req, QuestionEnd(ls), store)
      && DecodeName(req[HeaderSize..QuestionEnd(ls) - 4]) == DottedName(ls)
      && DottedName(ls) != "" && |DottedName(ls)| <= MaxNameLength
  {
    var req := Query(header, ls, qtail);
    var z := HeaderSize + |EncodeLabels(ls)|;
    QueryLayout(header, ls, qtail);
    EncodedChain(req, HeaderSize, ls);
    WalkOutcomeAt(req, HeaderSize, z);
    DispatchPastHeader(req, store, z);
    NameDecodesBack(ls);
    DottedNameLength(ls);
  }

  /** A datagram whose header passes and whose walk ends at `z` with room for QTYPE and QCLASS goes to `Resolve`. */
  lemma DispatchPastHeader(req: seq<byte>, store: Directory.Store, z: nat)
    requires HeaderSize <= |req| && req[2] < 0x80 && 1 <= QdCount(req) <= MaxQuestions
    requires WalkQuestion(req, HeaderSize) == NameEnd(z) && z + 5 <= |req|
    ensures Dispatch(req, store) == Resolve(req, z + 5, store)
  {
  }

  /** Where the header, the encoded labels and the terminator sit in `Query(header, ls, qtail)`. */
  lemma QueryLayout(header: seq<byte>, ls: seq<seq<byte>>, qtail: seq<byte>)
    requires |header| == HeaderSize && WireLabels(ls) && |qtail| >= 4
    ensures var req := Query(header, ls, qtail);
      var z := HeaderSize + |EncodeLabels(ls)|;
      && QuestionEnd(ls) <= |req| && z < |req|
      && req[HeaderSize..z] == EncodeLabels(ls) && req[z] == 0
      && req[HeaderSize..QuestionEnd(ls) - 4] == EncodeName(ls)
      && req[2] == header[2] && QdCount(req) == Be16(header, 4)
  {
    var req := Query(header, ls, qtail);
    var e := EncodeLabels(ls);
    assert req == header + (e + [0] + qtail);
    assert req[HeaderSize..HeaderSize + |e|] == e;
    assert req[HeaderSize..HeaderSize + |e| + 1] == e + [0];
    assert req[..6] == header[..6];
  }

  /** A registered name whose record holds an address gets that address in a synthesized reply. */
  lemma RegisteredNameIsAnswered(header: seq<byte>, ls: seq<seq<byte>>, qtail: seq<byte>,
                                 records: map<string, Directory.Entry>, ip: seq<byte>)
    requires QueryHeader(header) && ReadableName(ls) && |qtail| >= 4 && |ip| == 4
    requires DottedName(ls) in records && records[DottedName(ls)].value == IPv4.FormatIPv4(ip)
    ensures var req := Query(header, ls, qtail);
      QuestionEnd(ls) <= |req|
      && Dispatch(req, Directory.Live(records)) == Reply(ResponseBytes(req, QuestionEnd(ls), ip))
  {
    WellFormedQuery(header, ls, qtail, Directory.Live(records));
    IPv4.ParseFormatted(ip);
    GetIpForDNCases(Directory.Live(records), DottedName(ls));
    assert IPv4.FormatIPv4(ip) != "" && IPv4.FormatIPv4(ip) != "error" by {
      assert IPv4.ParseIPv4("").None? by { assert Text.Split("", '.') == [[]]; }
      assert IPv4.ParseIPv4("error").None? by {
        Text.SplitSeparatorFree("error", '.');
      }
    }
  }

  /** A name with no record and no ".home" in it is handed to the upstream resolver unchanged. */
  lemma UnregisteredNameIsForwarded(header: seq<byte>, ls: seq<seq<byte>>, qtail: seq<byte>,
                                    records: map<string, Directory.Entry>)
    requires QueryHeader(header) && ReadableName(ls) && |qtail| >= 4
    requires DottedName(ls) !in records && !Text.Contains(DottedName(ls), HomeMarker)
    ensures Dispatch(Query(header, ls, qtail), Directory.Live(records)) == Forward(Query(header, ls, qtail))
  {
    WellFormedQuery(header, ls, qtail, Directory.Live(records));
  }

  /** A name with no record and ".home" somewhere in it is dropped. */
  lemma UnregisteredHomeNameIsDropped(header: seq<byte>, ls: seq<seq<byte>>, qtail: seq<byte>,
                                      records: map<string, Directory.Entry>, i: int)
    requires QueryHeader(header) && ReadableName(ls) && |qtail| >= 4
    requires DottedName(ls) !in records && Text.OccursAt(DottedName(ls), HomeMarker, i)
    ensures Dispatch(Query(header, ls, qtail), Directory.Live(records)) == Drop(LookupError)
  {
    WellFormedQuery(header, ls, qtail, Directory.Live(records));
    GetIpForDNCases(Directory.Live(records), DottedName(ls));
  }

  /** Without a directory, or with one whose commands fail, every well-formed query is forwarded. */
  lemma NoDirectoryForwards(header: seq<byte>, ls: seq<seq<byte>>, qtail: seq<byte>, store: Directory.Store)
    requires QueryHeader(header) && ReadableName(ls) && |qtail| >= 4
    requires store.Disconnected? || store.Failing?
    ensures Dispatch(Query(header, ls, qtail), store) == Forward(Query(header, ls, qtail))
  {
    WellFormedQuery(header, ls, qtail, store);
    GetIpForDNCases(store, DottedName(ls));
  }

  /** A record whose value is not an address (nor "" nor "error") makes the engine drop the query. */
  lemma BadDirectoryValueIsDropped(header: seq<byte>, ls: seq<seq<byte>>, qtail: seq<byte>,
                                   records: map<string, Directory.Entry>)
    requires QueryHeader(header) && ReadableName(ls) && |qtail| >= 4
    requires DottedName(ls) in records
    requires var v := records[DottedName(ls)].value; v != "" && v != "error" && IPv4.ParseIPv4(v).None?
    ensures Dispatch(Query(header, ls, qtail), Directory.Live(records)) == Drop(BadAddress)
  {
    WellFormedQuery(header, ls, qtail, Directory.Live(records));
  }

  /** The reply `r` answers the question ending at `off` with the address recorded for its name. */
  predicate AnswersFromRecord(req: seq<byte>, off: nat, records: map<string, Directory.Entry>, r: seq<byte>)
    requires HeaderSize + 5 <= off <= |req|
  {
    var name := DecodeName(req[HeaderSize..off - 4]);
    && name != "" && |name| <= MaxNameLength
    && name in records
    && IPv4.ParseIPv4(records[name].value).Some?
    && r == ResponseBytes(req, off, IPv4.ParseIPv4(records[name].value).value)
  }

  /**
   * Every reply comes from a query that passed the header checks and a
   * record in a live directory: it is the synthesized answer to the
   * query's question, carrying the address stored for the decoded name.
   */
  lemma ReplyComesFromRecord(req: seq<byte>, store: Directory.Store, r: seq<byte>)
    requires Dispatch(req, store) == Reply(r)
    ensures |req| >= HeaderSize && QrBit(req[2]) == 0 && 1 <= QdCount(req) <= MaxQuestions
    ensures store.Live?
    ensures exists off: nat ::
      && HeaderSize + 5 <= off <= |req|
      && WalkQuestion(req, HeaderSize) == NameEnd(off - 5)
      && AnswersFromRecord(req, off, store.records, r)
  {
    var off := WalkQuestion(req, HeaderSize).off + 5;
    var name := DecodeName(req[HeaderSize..off - 4]);
    GetIpForDNCases(store, name);
    assert AnswersFromRecord(req, off, store.records, r);
  }

  /** Why the engine forwarded: the directory gave no value for the decoded name. */
  ghost predicate NoValueFor(store: Directory.Store, name: string)
  {
    || store.Disconnected?
    || store.Failing?
    || (name !in store.records && !exists i :: Text.OccursAt(name, HomeMarker, i))
    || (name in store.records && store.records[name].value == "")
  }

  /**
   * The walk ends the question at `off`, its decoded name is non-empty and
   * at most 253 characters, and the directory gave no value for it.
   */
  ghost predicate NoValueForQuestion(req: seq<byte>, off: nat, store: Directory.Store)
  {
    && HeaderSize + 5 <= off <= |req|
    && WalkQuestion(req, HeaderSize) == NameEnd(off - 5)
    && var name := DecodeName(req[HeaderSize..off - 4]);
       name != "" && |name| <= MaxNameLength && NoValueFor(store, name)
  }

  /**
   * Every forward passes on the query unchanged, and happens only when the
   * directory gave no value for a well-formed question's name.
   */
  lemma ForwardMeansNoValue(req: seq<byte>, store: Directory.Store, q: seq<byte>)
    requires Dispatch(req, store) == Forward(q)
    ensures q == req
    ensures |req| >= HeaderSize && QrBit(req[2]) == 0 && 1 <= QdCount(req) <= MaxQuestions
    ensures exists off: nat :: NoValueForQuestion(req, off, store)
  {
    var off := WalkQuestion(req, HeaderSize).off + 5;
    var name := DecodeName(req[HeaderSize..off - 4]);
    GetIpForDNCases(store, name);
    assert NoValueForQuestion(req, off, store);
  }

  /** Every reply is laid out as RFC 1035 asks: the query's ID, QR set, one answer of type A and class IN. */
  lemma ReplyLayout(req: seq<byte>, store: Directory.Store, r: seq<byte>)
    requires Dispatch(req, store) == Reply(r)
    ensures exists off: nat ::
      && HeaderSize + 5 <= off <= |req| && |r| == off + 16
      && r[HeaderSize..off] == req[HeaderSize..off]
      && Be16(r, off) == 0xC00C && Be16(r, off + 2) == 1 && Be16(r, off + 4) == 1
    ensures |r| >= 16 && Be16(r, 0) == Be16(req, 0) && QrBit(r[2]) == 1
    ensures Be16(r, 4) == QdCount(req) && Be16(r, 6) == 1
  {
    ReplyComesFromRecord(req, store, r);
    var off: nat :| HeaderSize + 5 <= off <= |req| && WalkQuestion(req, HeaderSize) == NameEnd(off - 5)
      && AnswersFromRecord(req, off, store.records, r);
    var name := DecodeName(req[HeaderSize..off - 4]);
    ResponseLayout(req, off, IPv4.ParseIPv4(store.records[name].value).value);
  }
}

=== FILE: integration.dfy ===
/**
 * The admin API and the query engine share the directory: what
 * `CreateRecord` writes is what `getIpForDN` reads. These lemmas follow a
 * record from the API to the wire.
 */
module Integration {
  import opened Wire
  import Text
  import IPv4
  import Directory
  import Engine
  import EngineProperties
  import Api

  /** The bytes of text whose characters are all below 0x80. */
  function Bytes(s: string): (b: seq<byte>)
    requires Api.Ascii(s)
    ensures |b| == |s| && AsString(b) == s
  {
    seq(|s|, k requires 0 <= k < |s| => s[k] as int)
  }

  /** The labels a query for `domain` carries: its dot-separated parts as bytes. */
  function LabelsOf(domain: string): (ls: seq<seq<byte>>)
    requires Api.Ascii(domain)
    ensures |ls| == |Text.Split(domain, '.')|
  {
    var parts := Text.Split(domain, '.');
    AsciiParts(domain);
    seq(|parts|, k requires 0 <= k < |parts| => Bytes(parts[k]))
  }

  lemma AsciiParts(domain: string)
    requires Api.Ascii(domain)
    ensures forall k :: 0 <= k < |Text.Split(domain, '.')| ==> Api.Ascii(Text.Split(domain, '.')[k])
  {
    var parts := Text.Split(domain, '.');
    Text.JoinSplit(domain, '.');
    forall k | 0 <= k < |parts|
      ensures Api.Ascii(parts[k])
    {
      JoinedPartIsPiece(parts, '.', k);
    }
  }

  /** Every character of a part is a character of the join. */
  lemma {:induction false} JoinedPartIsPiece(parts: seq<string>, sep: char, k: nat)
    requires k < |parts|
    ensures forall c :: c in parts[k] ==> c in Text.Join(parts, sep)
    decreases |parts|
  {
    if k > 0 {
      JoinedPartIsPiece(parts[1..], sep, k - 1);
    }
  }

  /**
   * An ASCII domain the API accepts, of at most 100 parts, is the name of a
   * query the engine reads whole: its parts are labels of 1 to 63 bytes and
   * its encoding fits in 255 octets.
   */
  lemma ValidDomainIsReadable(domain: string)
    requires Api.ValidateDomain(domain) && Api.Ascii(domain)
    requires |Text.Split(domain, '.')| <= Engine.MaxNameIterations
    ensures EngineProperties.ReadableName(LabelsOf(domain))
    ensures DottedName(LabelsOf(domain)) == domain
  {
    var parts := Text.Split(domain, '.');
    var ls := LabelsOf(domain);
    AsciiParts(domain);
    forall k | 0 <= k < |parts|
      ensures |ls[k]| == |parts[k]| && 1 <= |ls[k]| <= MaxLabelLength
    {
      Api.AsciiLength(parts[k]);
    }
    assert LabelTexts(ls) == parts;
    Text.JoinSplit(domain, '.');
    Api.AsciiLength(domain);
    DottedNameLength(ls);
  }

  /**
   * After a successful create of an ASCII domain of at most 100 parts whose
   * address is a dotted quad, a query for that domain gets the synthesized
   * reply carrying that address.
   */
  lemma CreatedRecordIsServed(domain: string, ip: seq<byte>, ttl: Api.int64, ipv6: bool,
                              records: map<string, Directory.Entry>,
                              header: seq<byte>, qtail: seq<byte>)
    requires |ip| == 4 && Api.Ascii(domain) && |Text.Split(domain, '.')| <= Engine.MaxNameIterations
    requires Api.CreateRecord(Api.Decoded(domain, IPv4.FormatIPv4(ip), ttl), ipv6, Directory.Live(records)).0.status
      == Api.Created
    requires EngineProperties.QueryHeader(header) && |qtail| >= 4
    ensures var after := Api.CreateRecord(Api.Decoded(domain, IPv4.FormatIPv4(ip), ttl), ipv6, Directory.Live(records)).1;
      var req := EngineProperties.Query(header, LabelsOf(domain), qtail);
      && EngineProperties.QuestionEnd(LabelsOf(domain)) <= |req|
      && Engine.Dispatch(req, after) == Reply(ResponseBytes(req, EngineProperties.QuestionEnd(LabelsOf(domain)), ip))
  {
    var after := Api.CreateRecord(Api.Decoded(domain, IPv4.FormatIPv4(ip), ttl), ipv6, Directory.Live(records)).1;
    ValidDomainIsReadable(domain);
    EngineProperties.RegisteredNameIsAnswered(header, LabelsOf(domain), qtail, after.records, ip);
  }

  /**
   * After a successful delete of an ASCII name, a query for the deleted
   * name (the path parameter without surrounding white space) is forwarded
   * upstream, or dropped when ".home" occurs in it. The name must be ASCII
   * because the API keeps Unicode text and the engine one character per
   * byte: the two spell other names differently.
   */
  lemma DeletedRecordIsNotServed(param: string, records: map<string, Directory.Entry>,
                                 header: seq<byte>, ls: seq<seq<byte>>, qtail: seq<byte>)
    requires Api.DeleteRecord(param, Directory.Live(records)).0.status == Api.OK
    requires EngineProperties.QueryHeader(header) && EngineProperties.ReadableName(ls) && |qtail| >= 4
    requires Api.Ascii(Api.TrimSpace(param)) && DottedName(ls) == Api.TrimSpace(param)
    ensures var after := Api.DeleteRecord(param, Directory.Live(records)).1;
      var req := EngineProperties.Query(header, ls, qtail);
      Engine.Dispatch(req, after)
        == if Text.Contains(DottedName(ls), Engine.HomeMarker) then Drop(LookupError) else Forward(req)
  {
    var after := Api.DeleteRecord(param, Directory.Live(records)).1;
    assert DottedName(ls) !in after.records;
    EngineProperties.WellFormedQuery(header, ls, qtail, after);
    Engine.GetIpForDNCases(after, DottedName(ls));
    Text.ContainsIff(DottedName(ls), Engine.HomeMarker);
  }

  /** `n` one-letter parts. */
  function OneLetterParts(n: nat): (parts: seq<string>)
    ensures |parts| == n && forall k :: 0 <= k < n ==> parts[k] == "a"
  {
    seq(n, k => "a")
  }

  /** Joined with dots, `n` one-letter parts make `2n - 1` characters, each 'a' or '.'. */
  lemma {:induction false} OneLetterJoin(n: nat)
    requires n >= 1
    ensures |Text.Join(OneLetterParts(n), '.')| == 2 * n - 1
    ensures Api.Ascii(Text.Join(OneLetterParts(n), '.'))
    decreases n
  {
    if n > 1 {
      OneLetterJoin(n - 1);
      assert OneLetterParts(n)[1..] == OneLetterParts(n - 1);
      var j := Text.Join(OneLetterParts(n), '.');
      assert j == "a" + ['.'] + Text.Join(OneLetterParts(n - 1), '.');
      assert forall k :: 2 <= k < |j| ==> j[k] == Text.Join(OneLetterParts(n - 1), '.')[k - 2];
    }
  }

  /**
   * The API accepts names the engine cannot find: a domain of 101 to 127
   * one-letter parts is valid, at most 253 bytes, but a query for it is
   * looked up under its first 100 parts only, a different name.
   */
  lemma ManyPartsAreTruncated(n: nat)
    requires Engine.MaxNameIterations < n <= 127
    ensures var domain := Text.Join(OneLetterParts(n), '.');
      && Api.Ascii(domain) && Api.ValidateDomain(domain)
      && Engine.DecodeName(EncodeName(LabelsOf(domain))) != domain
  {
    var parts := OneLetterParts(n);
    var domain := Text.Join(parts, '.');
    OneLetterJoin(n);
    Api.AsciiLength(domain);
    Text.SplitJoin(parts, '.');
    assert Api.ValidPart("a");
    var ls := LabelsOf(domain);
    assert forall k :: 0 <= k < |ls| ==> ls[k] == [0x61];
    EngineProperties.LongNameIsTruncated(ls);
    var kept := ls[..Engine.MaxNameIterations];
    assert LabelTexts(kept) == OneLetterParts(Engine.MaxNameIterations);
    OneLetterJoin(Engine.MaxNameIterations);
  }
}

=== FILE: ipv4.dfy ===
/**
 * IPv4 addresses in dotted-quad text, as Go's `net.ParseIP(s).To4()` reads
 * them and `net.IP.String()` writes them: four decimal fields separated by
 * '.', each without leading zeros and at most 255.
 */
module IPv4 {
  import opened Wrappers
  import opened Wire
  import Text

  predicate IsDigit(c: char)
  {
    '0' <= c <= '9'
  }

  predicate AllDigits(f: string)
  {
    forall k :: 0 <= k < |f| ==> IsDigit(f[k])
  }

  function DigitValue(c: char): nat
    requires IsDigit(c)
  {
    c as int - '0' as int
  }

  function Digit(n: nat): (c: char)
    requires n < 10
    ensures IsDigit(c) && DigitValue(c) == n
  {
    (n + '0' as int) as char
  }

  /** The value of a digit string, most significant digit first. */
  function DecimalValue(f: string): nat
    requires AllDigits(f)
    decreases |f|
  {
    if |f| == 0 then 0 else DecimalValue(f[..|f| - 1]) * 10 + DigitValue(f[|f| - 1])
  }

  /** One field: non-empty, all digits, no leading zero, at most 255. */
  function ParseOctet(field: string): Option<byte>
  {
    if |field| == 0 || !AllDigits(field) then None
    else if |field| > 1 && field[0] == '0' then None
    else if DecimalValue(field) > 255 then None
    else Some(DecimalValue(field))
  }

  function ParseFields(fields: seq<string>): (r: Option<seq<byte>>)
    ensures r.Some? ==> |r.value| == |fields|
  {
    if |fields| == 0 then Some([])
    else match ParseOctet(fields[0])
      case None => None
      case Some(b) =>
        match ParseFields(fields[1..])
        case None => None
        case Some(rest) => Some([b] + rest)
  }

  /** The four address bytes of dotted-quad text, or None. */
  function ParseIPv4(s: string): (ip: Option<seq<byte>>)
    ensures ip.Some? ==> |ip.value| == 4
  {
    var fields := Text.Split(s, '.');
    if |fields| != 4 then None else ParseFields(fields)
  }

  /** The shortest decimal text of a byte. */
  function FormatOctet(b: byte): string
  {
    if b < 10 then [Digit(b)]
    else if b < 100 then [Digit(b / 10), Digit(b % 10)]
    else [Digit(b / 100), Digit(b / 10 % 10), Digit(b % 10)]
  }

  function FormatFields(ip: seq<byte>): (fs: seq<string>)
    ensures |fs| == |ip|
    ensures forall k :: 0 <= k < |ip| ==> fs[k] == FormatOctet(ip[k])
  {
    seq(|ip|, k requires 0 <= k < |ip| => FormatOctet(ip[k]))
  }

  /** `net.IP.String()` of a 4-byte address. */
  function FormatIPv4(ip: seq<byte>): string
    requires |ip| == 4
  {
    Text.Join(FormatFields(ip), '.')
  }

  lemma OctetRoundTrip(b: byte)
    ensures ParseOctet(FormatOctet(b)) == Some(b)
    ensures '.' !in FormatOctet(b)
  {
    if b < 10 {
      DecimalOfOne(Digit(b));
    } else if b < 100 {
      DecimalOfTwo(Digit(b / 10), Digit(b % 10));
    } else {
      DecimalOfThree(Digit(b / 100), Digit(b / 10 % 10), Digit(b % 10));
      assert b == (b / 100) * 100 + (b / 10 % 10) * 10 + b % 10;
    }
  }

  lemma DecimalOfOne(c0: char)
    requires IsDigit(c0)
    ensures DecimalValue([c0]) == DigitValue(c0)
  {
    assert [c0][..0] == [];
  }

  lemma DecimalOfTwo(c0: char, c1: char)
    requires IsDigit(c0) && IsDigit(c1)
    ensures DecimalValue([c0, c1]) == DigitValue(c0) * 10 + DigitValue(c1)
  {
    assert [c0, c1][..1] == [c0];
    DecimalOfOne(c0);
  }

  lemma DecimalOfThree(c0: char, c1: char, c2: char)
    requires IsDigit(c0) && IsDigit(c1) && IsDigit(c2)
    ensures DecimalValue([c0, c1, c2]) == DigitValue(c0) * 100 + DigitValue(c1) * 10 + DigitValue(c2)
  {
    assert [c0, c1, c2][..2] == [c0, c1];
    DecimalOfTwo(c0, c1);
  }

  /** A digit string without a leading zero and four or more digits is worth at least 1000. */
  lemma {:induction false} DecimalValueLowerBound(f: string)
    requires AllDigits(f) && |f| >= 4 && f[0] != '0'
    ensures DecimalValue(f) >= 1000
    decreases |f|
  {
    var g := f[..|f| - 1];
    assert AllDigits(g);
    if |f| > 4 {
      DecimalValueLowerBound(g);
    } else {
      var g2, g1 := g[..2], g[..2][..1];
      assert g1 == [f[0]] && g1[..0] == [];
      assert DecimalValue(g1) >= 1;
      assert DecimalValue(g2) >= 10;
      assert DecimalValue(g) >= 100;
    }
  }

  /** Only the shortest decimal text of a byte parses as that byte. */
  lemma OctetCanonical(f: string, b: byte)
    requires ParseOctet(f) == Some(b)
    ensures f == FormatOctet(b)
  {
    if |f| >= 4 {
      DecimalValueLowerBound(f);
    } else if |f| == 1 {
      OneDigitCanonical(f, b);
    } else if |f| == 2 {
      TwoDigitsCanonical(f, b);
    } else {
      ThreeDigitsCanonical(f, b);
    }
  }

  lemma OneDigitCanonical(f: string, b: byte)
    requires |f| == 1 && ParseOctet(f) == Some(b)
    ensures f == FormatOctet(b)
  {
    assert f == [f[0]];
    DecimalOfOne(f[0]);
    assert Digit(b) == f[0];
  }

  lemma TwoDigitsCanonical(f: string, b: byte)
    requires |f| == 2 && ParseOctet(f) == Some(b)
    ensures f == FormatOctet(b)
  {
    var d0, d1 := DigitValue(f[0]), DigitValue(f[1]);
    assert f == [f[0], f[1]];
    DecimalOfTwo(f[0], f[1]);
    assert b / 10 == d0 && b % 10 == d1;
    assert Digit(d0) == f[0] && Digit(d1) == f[1];
  }

  lemma ThreeDigitsCanonical(f: string, b: byte)
    requires |f| == 3 && ParseOctet(f) == Some(b)
    ensures f == FormatOctet(b)
  {
    var d0, d1, d2 := DigitValue(f[0]), DigitValue(f[1]), DigitValue(f[2]);
    assert f == [f[0], f[1], f[2]];
    DecimalOfThree(f[0], f[1], f[2]);
    assert b / 100 == d0 && b / 10 % 10 == d1 && b % 10 == d2;
    assert Digit(d0) == f[0] && Digit(d1) == f[1] && Digit(d2) == f[2];
  }

  lemma {:induction false} FieldsRoundTrip(ip: seq<byte>)
    ensures ParseFields(FormatFields(ip)) == Some(ip)
    decreases |ip|
  {
    if |ip| > 0 {
      OctetRoundTrip(ip[0]);
      FieldsRoundTrip(ip[1..]);
      assert FormatFields(ip)[1..] == FormatFields(ip[1..]);
      assert [ip[0]] + ip[1..] == ip;
    }
  }

  lemma {:induction false} FieldsCanonical(fields: seq<string>, ip: seq<byte>)
    requires ParseFields(fields) == Some(ip)
    ensures fields == FormatFields(ip)
    decreases |fields|
  {
    if |fields| > 0 {
      OctetCanonical(fields[0], ip[0]);
      FieldsCanonical(fields[1..], ip[1..]);
    }
  }

  /** Formatting an address and parsing the text gives the address back. */
  lemma ParseFormatted(ip: seq<byte>)
    requires |ip| == 4
    ensures ParseIPv4(FormatIPv4(ip)) == Some(ip)
  {
    var fs := FormatFields(ip);
    forall k | 0 <= k < |fs|
      ensures '.' !in fs[k]
    {
      OctetRoundTrip(ip[k]);
    }
    Text.SplitJoin(fs, '.');
    FieldsRoundTrip(ip);
  }

  /** Text that parses is exactly the formatted address: the form is canonical. */
  lemma ParsedIsFormatted(s: string, ip: seq<byte>)
    requires ParseIPv4(s) == Some(ip)
    ensures s == FormatIPv4(ip)
  {
    Text.JoinSplit(s, '.');
    FieldsCanonical(Text.Split(s, '.'), ip);
  }

  /** Text parses as an address exactly when it is the dotted-quad form of some four bytes. */
  lemma ParsesExactlyFormatted(s: string)
    ensures ParseIPv4(s).Some? <==> exists ip :: |ip| == 4 && FormatIPv4(ip) == s
  {
    if ParseIPv4(s).Some? {
      ParsedIsFormatted(s, ParseIPv4(s).value);
    } else if exists ip :: |ip| == 4 && FormatIPv4(ip) == s {
      var ip :| |ip| == 4 && FormatIPv4(ip) == s;
      ParseFormatted(ip);
    }
  }
}

=== FILE: legacy.dfy ===
/**
 * The earlier revision of the query engine, handlers/handlers.go. It has
 * no bounds checks: its walk over the question follows length bytes until
 * it meets a zero byte, and it indexes the datagram wherever they lead.
 * Go would panic on a datagram that sends it outside the bytes, so the
 * model makes "every index stays inside the datagram" a precondition,
 * `LegacyWellFormed`, and the lemmas at the end compare the two revisions.
 */
module LegacyEngine {
  import opened Wrappers
  import opened Wire
  import Text
  import IPv4
  import Directory
  import Engine
  import EngineProperties

  /** The one name this revision answers itself. */
  const LocalName: string := "vm.home.local"

  /**
   * Following length bytes from the start of `q` reaches a zero byte
   * without ever indexing past the end of `q`. Any non-zero byte counts as
   * a length, 64 to 255 included.
   */
  predicate LabelsTerminate(q: seq<byte>)
    decreases |q|
  {
    |q| > 0 && (q[0] == 0 || (q[0] + 1 < |q| && LabelsTerminate(q[q[0] + 1..])))
  }

  /** Where that zero byte is. */
  function TerminatorIndex(q: seq<byte>): (z: nat)
    requires LabelsTerminate(q)
    ensures z < |q| && q[z] == 0
    decreases |q|
  {
    if q[0] == 0 then 0 else q[0] + 1 + TerminatorIndex(q[q[0] + 1..])
  }

  /** The labels met on the way to the zero byte. */
  function LegacyLabels(q: seq<byte>): seq<seq<byte>>
    requires LabelsTerminate(q)
    decreases |q|
  {
    if q[0] == 0 then [] else [q[1..1 + q[0]]] + LegacyLabels(q[q[0] + 1..])
  }

  /** The name the earlier `parseName` returns for `q`. */
  function LegacyDecodeName(q: seq<byte>): string
    requires LabelsTerminate(q)
  {
    DottedName(LegacyLabels(q))
  }

  /** Where the question of a datagram whose walk terminates ends, QTYPE and QCLASS included. */
  function LegacyQuestionEnd(req: seq<byte>): nat
    requires |req| > HeaderSize && LabelsTerminate(req[HeaderSize..])
  {
    HeaderSize + TerminatorIndex(req[HeaderSize..]) + 5
  }

  /**
   * The datagrams the earlier revision handles without indexing outside
   * them: the header fields it reads exist, and when there is a question
   * its labels end at a zero byte inside the datagram, and for the local
   * name the echoed question with QTYPE and QCLASS is inside it too.
   */
  predicate LegacyWellFormed(req: seq<byte>)
  {
    && |req| >= 6
    && (QdCount(req) != 0 ==>
         && |req| > HeaderSize
         && LabelsTerminate(req[HeaderSize..])
         && var off := LegacyQuestionEnd(req);
            LabelsTerminate(req[HeaderSize..off - 4])
            && (LegacyDecodeName(req[HeaderSize..off - 4]) == LocalName ==> off <= |req|))
  }

  /** The bytes `net.ParseIP(s).To4()` appends: the address, or nothing at all. */
  function AddressBytes(s: string): (b: seq<byte>)
    ensures |b| == 0 || |b| == 4
  {
    match IPv4.ParseIPv4(s)
    case None => []
    case Some(ip) => ip
  }

  /**
   * What the earlier revision does with `req`, given the text `tsIP` that
   * the interface lookup returned ("" when it found none).
   */
  function LegacyDispatch(req: seq<byte>, tsIP: string): (o: Outcome)
    requires LegacyWellFormed(req)
    ensures QdCount(req) == 0 ==> o == Drop(NoQuestion)
    ensures o.Forward? ==> o.query == req
    ensures QdCount(req) != 0 && LegacyDecodeName(req[HeaderSize..LegacyQuestionEnd(req) - 4]) != LocalName ==>
      o == Forward(req)
    ensures QdCount(req) != 0 && LegacyDecodeName(req[HeaderSize..LegacyQuestionEnd(req) - 4]) == LocalName ==>
      o == if tsIP == "" then Drop(NoInterfaceAddress)
           else Reply(ResponseBytes(req, LegacyQuestionEnd(req), AddressBytes(tsIP)))
    ensures o.Reply? ==>
      && QdCount(req) != 0 && tsIP != ""
      && LegacyDecodeName(req[HeaderSize..LegacyQuestionEnd(req) - 4]) == LocalName
      && |o.response| == LegacyQuestionEnd(req) + 12 + |AddressBytes(tsIP)|
  {
    if QdCount(req) == 0 then Drop(NoQuestion)
    else
      var off := LegacyQuestionEnd(req);
      if LegacyDecodeName(req[HeaderSize..off - 4]) != LocalName then Forward(req)
      else if tsIP == "" then Drop(NoInterfaceAddress)
      else Reply(ResponseBytes(req, off, AddressBytes(tsIP)))
  }

  /** One step of the unchecked walk reads one label and stays on the way to the same zero byte. */
  lemma NextLabel(req: seq<byte>, off: nat, next: nat)
    requires off < |req| && LabelsTerminate(req[off..]) && req[off] != 0 && next == off + req[off] + 1
    ensures next < |req| && LabelsTerminate(req[next..])
    ensures off + TerminatorIndex(req[off..]) == next + TerminatorIndex(req[next..])
    ensures LegacyLabels(req[off..]) == [req[off + 1..next]] + LegacyLabels(req[next..])
  {
    var q := req[off..];
    assert q[q[0] + 1..] == req[next..];
    assert q[1..1 + q[0]] == req[off + 1..next];
  }

  /** The earlier `parseName`: labels joined with "." up to the first zero length. */
  method ParseName(q: seq<byte>) returns (name: string)
    requires LabelsTerminate(q)
    ensures name == LegacyDecodeName(q)
  {
    var parts: seq<string> := [];
    ghost var labels: seq<seq<byte>> := [];
    var i := 0;
    while true
      invariant 0 <= i < |q| && LabelsTerminate(q[i..])
      invariant labels + LegacyLabels(q[i..]) == LegacyLabels(q)
      invariant parts == LabelTexts(labels)
      decreases |q| - i
    {
      var length := q[i];
      assert q[i..][0] == length;
      if length == 0 {
        assert labels == LegacyLabels(q);
        break;
      }
      var next := i + 1 + length;
      ParseRound(q, i, next, labels, LegacyLabels(q));
      parts := parts + [AsString(q[i + 1..next])];
      labels := labels + [q[i + 1..next]];
      i := next;
    }
    name := Text.Join(parts, '.');
  }

  /** One round of the earlier `parseName` loop: the label it reads is appended to the labels and to their texts. */
  lemma ParseRound(q: seq<byte>, i: nat, next: nat, labels: seq<seq<byte>>, all: seq<seq<byte>>)
    requires i < |q| && LabelsTerminate(q[i..]) && q[i] != 0 && next == i + q[i] + 1
    requires labels + LegacyLabels(q[i..]) == all
    ensures next < |q| && LabelsTerminate(q[next..])
    ensures (labels + [q[i + 1..next]]) + LegacyLabels(q[next..]) == all
    ensures LabelTexts(labels + [q[i + 1..next]]) == LabelTexts(labels) + [AsString(q[i + 1..next])]
  {
    NextLabel(q, i, next);
    var read := q[i + 1..next];
    assert (labels + [read]) + LegacyLabels(q[next..]) == labels + ([read] + LegacyLabels(q[next..]));
    LabelTextsSnoc(labels, read);
  }

  /** The unchecked walk of the earlier `HandleDNSQuery`: length bytes are followed to the zero byte. */
  method WalkToTerminator(req: seq<byte>) returns (off: nat)
    requires |req| > HeaderSize && LabelsTerminate(req[HeaderSize..])
    ensures off == HeaderSize + TerminatorIndex(req[HeaderSize..])
  {
    off := HeaderSize;
    while req[off] != 0
      invariant HeaderSize <= off < |req| && LabelsTerminate(req[off..])
      invariant off + TerminatorIndex(req[off..]) == HeaderSize + TerminatorIndex(req[HeaderSize..])
      decreases |req| - off
    {
      var next := off + req[off] + 1;
      NextLabel(req, off, next);
      off := next;
    }
  }

  /** The earlier `HandleDNSQuery`. */
  method HandleDNSQuery(req: seq<byte>, tsIP: string) returns (out: Outcome)
    requires LegacyWellFormed(req)
    ensures out == LegacyDispatch(req, tsIP)
  {
    var qdCount := QdCount(req);
    if qdCount == 0 {
      return Drop(NoQuestion);
    }

    var off := WalkToTerminator(req);
    assert off + 5 == LegacyQuestionEnd(req);
    off := off + 5;

    var question := req[HeaderSize..off - 4];
    var domain := ParseName(question);
    if domain != LocalName {
      return Forward(req);
    }

    var res := AppendAnswerPrefix(req, off);
    if tsIP == "" {
      return Drop(NoInterfaceAddress);
    }
    var ip := AddressBytes(tsIP);
    res := res + ip;
    assert res == ResponseBytes(req, off, ip);
    return Reply(res);
  }

  // ---------------------------------------------------------------------
  // Properties of the earlier revision

  /** The unchecked walk stops on the labels' own terminator, so the question it decodes is the name up to it. */
  lemma {:induction false} TerminatedPrefix(q: seq<byte>, n: nat)
    requires LabelsTerminate(q) && TerminatorIndex(q) < n <= |q|
    ensures LabelsTerminate(q[..n])
    ensures TerminatorIndex(q[..n]) == TerminatorIndex(q)
    ensures LegacyLabels(q[..n]) == LegacyLabels(q)
    decreases |q|
  {
    if q[0] != 0 {
      var k: nat := q[0] as int + 1;
      assert TerminatorIndex(q) == k + TerminatorIndex(q[k..]);
      TerminatedPrefix(q[k..], n - k);
      PrefixStep(q, k, n);
    }
  }

  /** One step of `TerminatedPrefix`: what holds after the first label holds from the start. */
  lemma PrefixStep(q: seq<byte>, k: nat, n: nat)
    requires |q| > 0 && q[0] != 0 && k == q[0] as int + 1 && k < |q| && LabelsTerminate(q[k..])
    requires k + TerminatorIndex(q[k..]) < n <= |q|
    requires LabelsTerminate(q[k..][..n - k])
    requires TerminatorIndex(q[k..][..n - k]) == TerminatorIndex(q[k..])
    requires LegacyLabels(q[k..][..n - k]) == LegacyLabels(q[k..])
    ensures LabelsTerminate(q[..n])
    ensures TerminatorIndex(q[..n]) == TerminatorIndex(q)
    ensures LegacyLabels(q[..n]) == LegacyLabels(q)
  {
    var p := q[..n];
    assert p[0] == q[0];
    assert p[k..] == q[k..][..n - k];
    assert p[1..k] == q[1..k];
    FirstLabel(p, k);
    FirstLabel(q, k);
  }

  /** A first label followed by labels that reach a zero byte: the walk from the start reads it and goes on. */
  lemma FirstLabel(q: seq<byte>, next: nat)
    requires |q| > 0 && q[0] != 0 && next == q[0] as int + 1 && next < |q| && LabelsTerminate(q[next..])
    ensures LabelsTerminate(q)
    ensures TerminatorIndex(q) == next + TerminatorIndex(q[next..])
    ensures LegacyLabels(q) == [q[1..next]] + LegacyLabels(q[next..])
  {
  }

  /** Encoded labels followed by a zero byte and anything else: the unchecked walk reads them back. */
  lemma {:induction false} LegacyReadsEncoding(ls: seq<seq<byte>>, rest: seq<byte>)
    requires WireLabels(ls)
    ensures LabelsTerminate(EncodeName(ls) + rest)
    ensures TerminatorIndex(EncodeName(ls) + rest) == |EncodeLabels(ls)|
    ensures LegacyLabels(EncodeName(ls) + rest) == ls
    decreases |ls|
  {
    var q := EncodeName(ls) + rest;
    if |ls| > 0 {
      var n := |ls[0]|;
      var tail := EncodeName(ls[1..]) + rest;
      assert q == [n] + ls[0] + tail;
      assert q[1..1 + n] == ls[0] && q[n + 1..] == tail;
      LegacyReadsEncoding(ls[1..], rest);
      assert [ls[0]] + ls[1..] == ls;
    }
  }

  /** Both revisions decode the wire form of a name of 1 to 100 ordinary labels to its dotted form. */
  lemma BothRevisionsDecode(ls: seq<seq<byte>>)
    requires WireLabels(ls) && |ls| <= Engine.MaxNameIterations
    ensures LabelsTerminate(EncodeName(ls))
    ensures LegacyDecodeName(EncodeName(ls)) == DottedName(ls) == Engine.DecodeName(EncodeName(ls))
  {
    LegacyReadsEncoding(ls, []);
    assert EncodeName(ls) + [] == EncodeName(ls);
    EngineProperties.NameDecodesBack(ls);
  }

  /**
   * Where the checked walk follows ordinary labels to a zero byte, the
   * unchecked walk is safe and stops at that same byte.
   */
  lemma {:induction false} CheckedChainIsSafe(req: seq<byte>, from: nat, e: nat)
    requires Engine.LabelChain(req, from, e) && e < |req| && req[e] == 0
    ensures from <= e && LabelsTerminate(req[from..]) && from + TerminatorIndex(req[from..]) == e
    decreases e - from
  {
    if from != e {
      var next := from + 1 + req[from];
      assert Engine.LabelChain(req, next, e);
      CheckedChainIsSafe(req, next, e);
      assert req[from..][req[from] + 1..] == req[next..];
    }
  }

  /**
   * Every well-formed single-question query is inside the earlier
   * revision's precondition; it forwards every name but "vm.home.local" and
   * answers that one with the interface address, in the same reply bytes
   * as the checked revision gives for a record holding that address.
   */
  lemma RevisionsAgree(header: seq<byte>, ls: seq<seq<byte>>, qtail: seq<byte>,
                       records: map<string, Directory.Entry>, ip: seq<byte>)
    requires EngineProperties.QueryHeader(header) && EngineProperties.ReadableName(ls) && |qtail| >= 4
    requires |ip| == 4
    ensures var req := EngineProperties.Query(header, ls, qtail);
      && LegacyWellFormed(req)
      && LegacyQuestionEnd(req) == EngineProperties.QuestionEnd(ls)
      && (DottedName(ls) != LocalName ==> LegacyDispatch(req, IPv4.FormatIPv4(ip)) == Forward(req))
      && (DottedName(ls) == LocalName && LocalName in records && records[LocalName].value == IPv4.FormatIPv4(ip) ==>
            LegacyDispatch(req, IPv4.FormatIPv4(ip)) == Engine.Dispatch(req, Directory.Live(records)))
  {
    var req := EngineProperties.Query(header, ls, qtail);
    var q := req[HeaderSize..];
    assert q == EncodeName(ls) + qtail;
    assert QdCount(req) == Be16(header, 4);
    LegacyReadsEncoding(ls, qtail);
    var off := LegacyQuestionEnd(req);
    assert off == EngineProperties.QuestionEnd(ls);
    assert req[HeaderSize..off - 4] == q[..TerminatorIndex(q) + 1];
    TerminatedPrefix(q, TerminatorIndex(q) + 1);
    assert LegacyDecodeName(req[HeaderSize..off - 4]) == DottedName(ls);
    IPv4.ParseFormatted(ip);
    assert IPv4.FormatIPv4(ip) != "" by {
      assert IPv4.ParseIPv4("").None? by { assert Text.Split("", '.') == [[]]; }
    }
    if DottedName(ls) == LocalName && LocalName in records && records[LocalName].value == IPv4.FormatIPv4(ip) {
      EngineProperties.RegisteredNameIsAnswered(header, ls, qtail, records, ip);
    }
  }

  /**
   * A bare header announcing one question: the checked revision drops it,
   * while the earlier one would read past its end.
   */
  lemma BareHeaderOnlyCheckedRevisionHandles(req: seq<byte>, store: Directory.Store)
    requires |req| == HeaderSize && req[2] < 0x80 && QdCount(req) == 1
    ensures !LegacyWellFormed(req)
    ensures Engine.Dispatch(req, store) == Drop(TruncatedQuestion)
  {
  }

  /**
   * A label whose length runs past the end of the datagram: the checked
   * revision drops the datagram, while the earlier one would index past its end.
   */
  lemma OverrunOnlyCheckedRevisionHandles(req: seq<byte>, store: Directory.Store)
    requires |req| == HeaderSize + 2 && req[2] < 0x80 && QdCount(req) == 1
    requires req[HeaderSize] == 1 && req[HeaderSize + 1] != 0
    ensures !LegacyWellFormed(req)
    ensures Engine.Dispatch(req, store) == Drop(LabelOverrun)
  {
    var q := req[HeaderSize..];
    assert q[2..] == [];
  }
}

=== FILE: manager.dfy ===
/**
 * The domain-to-port table of internal/manager/dns.go. Its one field is a
 * Go map that starts out nil: reading a nil map or deleting from it is
 * harmless, but writing to it panics. `None` stands for the nil map.
 */
module Manager {
  import opened Wrappers

  class ContextManager {
    var context: Option<map<string, string>>

    /** The entries as Go reads them: a nil map reads as empty. */
    function Entries(): (m: map<string, string>)
      reads this
      ensures context.None? ==> m == map[]
      ensures context.Some? ==> m == context.value
    {
      if context.None? then map[] else context.value
    }

    /** `NewContextManager`: the table starts out with a nil map. */
    constructor ()
      ensures context == None
      ensures Entries() == map[]
    {
      context := None;
    }

    /** `AddRP`: maps `domainName` to `port`, overwriting any earlier port; the map must not be nil. */
    method AddRP(domainName: string, port: string)
      requires context.Some?
      modifies this
      ensures context == Some(old(context.value)[domainName := port])
      ensures domainName in Entries() && Entries()[domainName] == port
      ensures forall d :: d != domainName ==> (d in Entries() <==> d in old(Entries()))
      ensures forall d :: d != domainName && d in Entries() ==> Entries()[d] == old(Entries())[d]
    {
      context := Some(context.value[domainName := port]);
    }

    /** `RemoveRP`: deletes `domainName` only; on a nil map, or for an absent name, nothing changes. */
    method RemoveRP(domainName: string)
      modifies this
      ensures old(context).None? ==> context == None
      ensures old(context).Some? ==> context == Some(old(context.value) - {domainName})
      ensures domainName !in Entries()
      ensures forall d :: d != domainName ==> (d in Entries() <==> d in old(Entries()))
      ensures forall d :: d != domainName && d in Entries() ==> Entries()[d] == old(Entries())[d]
      ensures domainName !in old(Entries()) ==> Entries() == old(Entries())
    {
      if context.Some? {
        context := Some(context.value - {domainName});
      }
    }

    /** `GetContext`: the current map, with nothing changed. */
    method GetContext() returns (m: Option<map<string, string>>)
      ensures m == context
    {
      m := context;
    }

    /** `LoadContext`: replaces the whole map with `value`. */
    method LoadContext(value: Option<map<string, string>>)
      modifies this
      ensures context == value
    {
      context := value;
    }
  }

  /**
   * A sequence of calls on a new manager: loading a map, adding a name
   * and removing it again gives back the loaded map minus that name.
   */
  method LoadAddRemove(loaded: map<string, string>, domainName: string, port: string)
    returns (m: Option<map<string, string>>)
    ensures m == Some(loaded - {domainName})
  {
    var manager := new ContextManager();
    manager.LoadContext(Some(loaded));
    manager.AddRP(domainName, port);
    assert manager.Entries()[domainName] == port;
    manager.RemoveRP(domainName);
    assert loaded[domainName := port] - {domainName} == loaded - {domainName};
    m := manager.GetContext();
  }
}

=== FILE: text.dfy ===
/**
 * Sequence helpers with the meaning of Go's `strings.Join`, `strings.Split`
 * (and `strings.SplitSeq`) and `strings.Contains`, for a one-element
 * separator. They are generic so that they serve both byte strings and
 * character strings.
 */
module Text {

  /** `strings.Join(parts, sep)`: the parts with one `sep` between neighbours. */
  function Join<T>(parts: seq<seq<T>>, sep: T): seq<T>
  {
    if |parts| == 0 then []
    else if |parts| == 1 then parts[0]
    else parts[0] + [sep] + Join(parts[1..], sep)
  }

  /**
   * `strings.Split(s, sep)`: the maximal `sep`-free pieces between
   * separators, including the empty ones before a leading separator, after
   * a trailing one and between two adjacent ones. The empty string splits
   * into one empty part, as in Go.
   */
  function Split<T(==)>(s: seq<T>, sep: T): (parts: seq<seq<T>>)
    ensures |parts| >= 1
  {
    if |s| == 0 then [[]]
    else
      var rest := Split(s[1..], sep);
      if s[0] == sep then [[]] + rest
      else [[s[0]] + rest[0]] + rest[1..]
  }

  /** `strings.Contains(s, sub)`, written as a scan from the left. */
  function Contains<T(==)>(s: seq<T>, sub: seq<T>): bool
    decreases |s|
  {
    if |s| < |sub| then false
    else s[..|sub|] == sub || Contains(s[1..], sub)
  }

  /** `sub` occurs in `s` starting at offset `i`. */
  predicate OccursAt<T(==)>(s: seq<T>, sub: seq<T>, i: int)
  {
    0 <= i <= |s| - |sub| && s[i..i + |sub|] == sub
  }

  /** `Contains` finds exactly the occurrences of `sub` at some offset of `s`. */
  lemma {:induction false} ContainsIff<T>(s: seq<T>, sub: seq<T>)
    ensures Contains(s, sub) <==> exists i :: OccursAt(s, sub, i)
    decreases |s|
  {
    if |s| < |sub| {
    } else if s[..|sub|] == sub {
      assert OccursAt(s, sub, 0);
    } else {
      ContainsIff(s[1..], sub);
      if Contains(s[1..], sub) {
        var i :| OccursAt(s[1..], sub, i);
        assert s[i + 1..i + 1 + |sub|] == s[1..][i..i + |sub|];
        assert OccursAt(s, sub, i + 1);
      } else {
        forall i | 0 <= i <= |s| - |sub|
          ensures !OccursAt(s, sub, i)
        {
          if i == 0 {
            assert s[0..|sub|] == s[..|sub|];
          } else {
            var t := s[1..];
            var u, v := t[i - 1..i - 1 + |sub|], s[i..i + |sub|];
            assert forall k :: 0 <= k < |sub| ==> u[k] == v[k];
            assert u == v;
            assert !OccursAt(t, sub, i - 1);
          }
        }
      }
    }
  }

  /** No part produced by `Split` contains the separator. */
  lemma {:induction false} SplitPartsAreSeparatorFree<T>(s: seq<T>, sep: T)
    ensures forall k :: 0 <= k < |Split(s, sep)| ==> sep !in Split(s, sep)[k]
    decreases |s|
  {
    if |s| > 0 {
      SplitPartsAreSeparatorFree(s[1..], sep);
    }
  }

  /** Joining the parts of a split gives back the original sequence. */
  lemma {:induction false} JoinSplit<T>(s: seq<T>, sep: T)
    ensures Join(Split(s, sep), sep) == s
    decreases |s|
  {
    if |s| > 0 {
      var rest := Split(s[1..], sep);
      JoinSplit(s[1..], sep);
      if s[0] == sep {
        assert Split(s, sep) == [[]] + rest;
        assert ([[]] + rest)[1..] == rest;
      } else {
        var parts := Split(s, sep);
        assert parts == [[s[0]] + rest[0]] + rest[1..];
        if |rest| == 1 {
          assert Join(parts, sep) == [s[0]] + rest[0];
        } else {
          assert parts[1..] == rest[1..];
          assert Join(rest, sep) == rest[0] + [sep] + Join(rest[1..], sep);
          assert Join(parts, sep) == [s[0]] + rest[0] + [sep] + Join(rest[1..], sep);
        }
      }
    }
  }

  /** A separator-free sequence splits into itself alone. */
  lemma {:induction false} SplitSeparatorFree<T>(p: seq<T>, sep: T)
    requires sep !in p
    ensures Split(p, sep) == [p]
    decreases |p|
  {
    if |p| > 0 {
      SplitSeparatorFree(p[1..], sep);
      assert [p[0]] + p[1..] == p;
    }
  }

  /** Splitting `p + [sep] + t` for a separator-free `p` yields `p` first. */
  lemma {:induction false} SplitAfterPart<T>(p: seq<T>, sep: T, t: seq<T>)
    requires sep !in p
    ensures Split(p + [sep] + t, sep) == [p] + Split(t, sep)
    decreases |p|
  {
    var s := p + [sep] + t;
    if |p| == 0 {
      assert s[1..] == t;
    } else {
      assert s[1..] == p[1..] + [sep] + t;
      SplitAfterPart(p[1..], sep, t);
      assert [p[0]] + p[1..] == p;
    }
  }

  /**
   * Splitting a join of separator-free parts gives back the parts: the two
   * functions are inverse on such part lists.
   */
  lemma {:induction false} SplitJoin<T>(parts: seq<seq<T>>, sep: T)
    requires |parts| >= 1
    requires forall k :: 0 <= k < |parts| ==> sep !in parts[k]
    ensures Split(Join(parts, sep), sep) == parts
    decreases |parts|
  {
    if |parts| == 1 {
      SplitSeparatorFree(parts[0], sep);
    } else {
      SplitJoin(parts[1..], sep);
      SplitAfterPart(parts[0], sep, Join(parts[1..], sep));
      assert [parts[0]] + parts[1..] == parts;
    }
  }

  /**
   * A join of non-empty, separator-free parts neither starts nor ends with
   * the separator and never holds two separators side by side.
   */
  lemma {:induction false} JoinOfNonEmptyParts<T>(parts: seq<seq<T>>, sep: T)
    requires |parts| >= 1
    requires forall k :: 0 <= k < |parts| ==> |parts[k]| > 0 && sep !in parts[k]
    ensures var j := Join(parts, sep);
      && |j| > 0 && j[0] != sep && j[|j| - 1] != sep
      && forall i :: 0 <= i < |j| - 1 ==> !(j[i] == sep && j[i + 1] == sep)
    decreases |parts|
  {
    if |parts| > 1 {
      JoinOfNonEmptyParts(parts[1..], sep);
      var p, rest := parts[0], Join(parts[1..], sep);
      var j := Join(parts, sep);
      assert j == p + [sep] + rest;
      forall i | 0 <= i < |j| - 1
        ensures !(j[i] == sep && j[i + 1] == sep)
      {
        if i < |p| {
          assert j[i] == p[i];
        } else if i == |p| {
          assert j[i + 1] == rest[0];
        } else {
          assert j[i] == rest[i - |p| - 1] && j[i + 1] == rest[i - |p|];
        }
      }
    }
  }
}

=== FILE: wire.dfy ===
/**
 * The pieces of the RFC 1035 message format that both revisions of the
 * query engine share: bytes, big-endian fields of the header (section
 * 4.1.1), the encoding of a name as length-prefixed labels (sections 3.1
 * and 4.1.2), the fixed reply the engine synthesizes (sections 4.1.1,
 * 4.1.3 and the compression pointer of section 4.1.4), and what the engine
 * does with one datagram.
 */
module Wire {
  import Text

  type byte = x: int | 0 <= x < 256

  const HeaderSize: nat := 12       // section 4.1.1
  const MaxLabelLength: nat := 63   // section 2.3.4
  const PointerMark: nat := 0xC0    // a length byte with both top bits set starts a pointer (section 4.1.4)
  const MaxUdpMessage: nat := 512   // section 2.3.4
  const MaxNameOctets: nat := 255   // section 2.3.4, terminating zero included

  /** Why a datagram gets no reply; every one of these is a silent drop. */
  datatype DropReason =
    | TooShort              // fewer bytes than a header
    | NotAQuery             // the QR bit says "response"
    | NoQuestion            // QDCOUNT is 0
    | TooManyQuestions      // QDCOUNT is above the engine's bound
    | BadLabelLength        // a length byte between 64 and 191
    | LabelOverrun          // a label that does not end before the datagram does
    | TooLarge              // the walk went past offset 512
    | TruncatedQuestion     // no room for the terminator, QTYPE and QCLASS
    | EmptyName             // the decoded name is empty
    | NameTooLong           // the decoded name is longer than 253 characters
    | LookupError           // the directory reported a missing "*.home*" name
    | BadAddress            // the directory value is not an IPv4 address
    | NoInterfaceAddress    // the earlier revision found no interface address

  /** The one thing the engine does with a datagram. */
  datatype Outcome =
    | Drop(reason: DropReason)    // nothing is written back
    | Forward(query: seq<byte>)   // handed to the upstream relay
    | Reply(response: seq<byte>)  // written back to the client

  /** The unsigned big-endian 16-bit field at `i`. */
  function Be16(s: seq<byte>, i: nat): nat
    requires i + 2 <= |s|
  {
    (s[i] as int) * 0x100 + s[i + 1] as int
  }

  /** The unsigned big-endian 32-bit field at `i`. */
  function Be32(s: seq<byte>, i: nat): nat
    requires i + 4 <= |s|
  {
    Be16(s, i) * 0x1_0000 + Be16(s, i + 2)
  }

  /** QDCOUNT, `binary.BigEndian.Uint16(req[4:6])`. */
  function QdCount(req: seq<byte>): nat
    requires |req| >= 6
  {
    Be16(req, 4)
  }

  /** `(flags & 0x80) >> 7`: the QR bit of the first flags byte. */
  function QrBit(flags: byte): (qr: byte)
    ensures qr == 1 <==> flags >= 0x80
    ensures qr == 0 <==> flags < 0x80
  {
    (((flags as bv8) & 0x80) >> 7) as byte
  }

  /** Go's `string(b)`: one character per byte. */
  function AsString(b: seq<byte>): (s: string)
    ensures |s| == |b|
    ensures forall k :: 0 <= k < |b| ==> s[k] as int == b[k]
  {
    seq(|b|, k requires 0 <= k < |b| => b[k] as char)
  }

  // ---------------------------------------------------------------------
  // Names on the wire

  /** Labels that can stand in a name: 1 to 63 bytes each. */
  predicate WireLabels(ls: seq<seq<byte>>)
  {
    forall k :: 0 <= k < |ls| ==> 1 <= |ls[k]| <= MaxLabelLength
  }

  /** The labels, each preceded by its length byte, without the terminator. */
  function EncodeLabels(ls: seq<seq<byte>>): seq<byte>
    requires WireLabels(ls)
  {
    if |ls| == 0 then [] else [|ls[0]|] + ls[0] + EncodeLabels(ls[1..])
  }

  /** A whole QNAME: the encoded labels and the terminating zero byte. */
  function EncodeName(ls: seq<seq<byte>>): seq<byte>
    requires WireLabels(ls)
  {
    EncodeLabels(ls) + [0]
  }

  /** Each label read as text, as `string(labelBytes)` does. */
  function LabelTexts(ls: seq<seq<byte>>): (ts: seq<string>)
    ensures |ts| == |ls|
    ensures forall k :: 0 <= k < |ls| ==> ts[k] == AsString(ls[k])
  {
    seq(|ls|, k requires 0 <= k < |ls| => AsString(ls[k]))
  }

  /** Reading one more label as text appends its text. */
  lemma LabelTextsSnoc(ls: seq<seq<byte>>, x: seq<byte>)
    ensures LabelTexts(ls + [x]) == LabelTexts(ls) + [AsString(x)]
  {
    assert forall k :: 0 <= k < |ls| ==> (ls + [x])[k] == ls[k];
  }

  /** The presentation form of a name: its labels joined with ".". */
  function DottedName(ls: seq<seq<byte>>): string
  {
    Text.Join(LabelTexts(ls), '.')
  }

  /**
   * A dotted name is one character shorter than its labels' encoding, so
   * the 253-character limit on names is the 255-octet limit of section
   * 2.3.4 on the encoded name with its terminator.
   */
  lemma {:induction false} DottedNameLength(ls: seq<seq<byte>>)
    requires WireLabels(ls) && |ls| >= 1
    ensures |DottedName(ls)| + 1 == |EncodeLabels(ls)|
    ensures |DottedName(ls)| <= 253 <==> |EncodeName(ls)| <= MaxNameOctets
    decreases |ls|
  {
    if |ls| > 1 {
      DottedNameLength(ls[1..]);
      assert LabelTexts(ls)[1..] == LabelTexts(ls[1..]);
    }
  }

  // ---------------------------------------------------------------------
  // The synthesized reply

  /** The flags of every synthesized reply: QR, RD and RA set, RCODE 0. */
  const ReplyFlags: seq<byte> := [0x81, 0x80]

  /** The answer record up to its RDATA: pointer to offset 12, A, IN, TTL 60, RDLENGTH 4. */
  const AnswerPrefix: seq<byte> := [0xC0, 0x0C, 0x00, 0x01, 0x00, 0x01, 0x00, 0x00, 0x00, 0x3C, 0x00, 0x04]

  /**
   * The reply to `req` whose question section ends at `off`: the query's
   * ID, the reply flags, its QDCOUNT, ANCOUNT 1, NSCOUNT 0, ARCOUNT 0, the
   * query's bytes from 12 up to `off`, and one answer record with `rdata`.
   */
  function ResponseBytes(req: seq<byte>, off: nat, rdata: seq<byte>): seq<byte>
    requires HeaderSize <= off <= |req|
  {
    req[0..2] + ReplyFlags + req[4..6] + [0x00, 0x01, 0x00, 0x00, 0x00, 0x00]
      + req[HeaderSize..off] + AnswerPrefix + rdata
  }

  /**
   * The reply up to its RDATA, built by successive appends as both
   * revisions of the engine build it.
   */
  method AppendAnswerPrefix(req: seq<byte>, off: nat) returns (res: seq<byte>)
    requires HeaderSize <= off <= |req|
    ensures forall rdata :: res + rdata == ResponseBytes(req, off, rdata)
  {
    res := req[0..2];
    res := res + ReplyFlags;
    res := res + req[4..6];                  // QDCOUNT
    res := res + [0x00, 0x01];               // ANCOUNT
    res := res + [0x00, 0x00];               // NSCOUNT
    res := res + [0x00, 0x00];               // ARCOUNT
    res := res + req[HeaderSize..off];       // the question, echoed
    res := res + [0xC0, 0x0C];               // name: pointer to offset 12
    res := res + [0x00, 0x01];               // type A
    res := res + [0x00, 0x01];               // class IN
    res := res + [0x00, 0x00, 0x00, 0x3C];   // TTL 60 seconds
    res := res + [0x00, 0x04];               // RDLENGTH
  }

  /** The reply read field by field, in the terms of RFC 1035. */
  lemma ResponseLayout(req: seq<byte>, off: nat, rdata: seq<byte>)
    requires HeaderSize <= off <= |req|
    ensures var r := ResponseBytes(req, off, rdata);
      && |r| == off + 12 + |rdata|
      && Be16(r, 0) == Be16(req, 0)              // ID
      && QrBit(r[2]) == 1 && r[3] % 16 == 0       // a response, RCODE 0
      && Be16(r, 4) == QdCount(req)              // QDCOUNT
      && Be16(r, 6) == 1                         // ANCOUNT
      && Be16(r, 8) == 0 && Be16(r, 10) == 0     // NSCOUNT, ARCOUNT
      && r[HeaderSize..off] == req[HeaderSize..off]
      && Be16(r, off) == 0xC000 + HeaderSize     // NAME: pointer to offset 12
      && Be16(r, off + 2) == 1                   // TYPE A
      && Be16(r, off + 4) == 1                   // CLASS IN
      && Be32(r, off + 6) == 60                  // TTL
      && Be16(r, off + 10) == 4                  // RDLENGTH
      && r[off + 12..] == rdata
  {
    var r := ResponseBytes(req, off, rdata);
    assert r[off..off + 12] == AnswerPrefix;
    assert r[off] == 0xC0 && r[off + 1] == 0x0C;
  }
}

=== FILE: wrappers.dfy ===
/** The usual optional-value datatype. */
module Wrappers {

  datatype Option<+T> = None | Some(value: T)
}
